=== FILE: README.md ===
# Flagabs core in Dafny

Flagabs is a flag quiz. The browser shows one country flag at a time with four
name options. A wrong answer or a 10-second timeout ends the run. A *daily* run
uses ten flags in an order that every player shares for the calendar day; a
*classic* run uses all flags in random order. A small server keeps each player's
best score per mode (and per day for daily runs), serves a top-ten ranking, and
builds the country list from an ISO 3166-1 alpha-2 map.

The project models the pure parts of both halves:

- the daily ordering: `seedFromString` is FNV-1a over UTF-16 code units
  (`Fnv`), `mulberry32` is a 32-bit counter generator (`Mulberry`), and the
  Fisher–Yates shuffles (`seededShuffle` and `shuffle`) are each given once as
  a functional model and once as the loop the source runs, with the copy held
  as a sequence (`Shuffle`); the index arithmetic is `Random`;
- `buildOrder`, the four-option construction and the score/index state machine
  of a quiz run (`Quiz`);
- the `POST /score` handler: validation, the record key, and upsert-if-better
  with its `updated` flag (`ScoreStore`);
- the `GET /ranking` query: filter, rank by score then time, and cut to ten
  (`Ranking`);
- `normalizeName` and `buildCountriesFromMap` (`Countries`);
- shared pieces: the `[code, name]` flag entry both halves exchange
  (`Catalog`); JavaScript whitespace, `trim`, the `/\s+/g` replacement, the
  words of a string, lower-casing and UTF-16 code units (`Text`);
  `Option`/`Result` (`Wrappers`); and sequence facts (`Collections`).

Modelling choices:

- `Math.random` is an oracle `nat -> Unit`, where `random(k)` is the k-th draw
  and `Unit` is the reals in [0, 1).
- `Date.now()` and the local day key are parameters.
- The server's JSON file is an in-memory `seq<Record>`.
- `Math.imul`, `>>>`, `^` and `|` are `bv32` operations, whose `*` and `+`
  wrap modulo 2^32.
- `Math.floor(draw * (i + 1))` is a real-number floor. `Random.PickOfUint32`
  shows that for a 32-bit draw `t` this is the integer `(t * (i + 1)) div 2^32`,
  and `Shuffle.DrawIndex` computes one seeded draw's index in that integer form.
  A double computes the same index while `t * (i + 1) < 2^53`, that is for
  arrays of at most 2^21 elements; the quiz's arrays are far shorter.
- The statements about the sequence of generator calls, and the shuffle loop,
  are proved for any output function of the counter (`Mulberry.Outputs`) and
  then applied to mulberry32's scramble. Nothing in them depends on the
  scramble's bit arithmetic.

Behaviour of the code worth knowing:

- The seed hash XORs the string's UTF-16 code units into the state. It equals
  standard FNV-1a over the UTF-8 octets only for ASCII strings
  (`Fnv.AsciiSeedIsFnv1a`, `Fnv.NonAsciiSeedDiffersFromFnv1a`).
- Classic mode cuts the shuffled list at the literal 99999, so it is a
  permutation of all countries only when there are at most 99999 of them.
- `mode` can be any string. Any mode other than `"daily"` gets the
  `|classic` key but keeps its own mode (`ScoreStore.OtherModesShareClassicKey`).
- Scores and times may be any finite non-negative numbers, fractions included.
- The key separates players only when names contain no `|`
  (`ScoreStore.KeyIsInjective`). With a `|` in a name, a classic key and a
  daily key can coincide (`ScoreStore.KeysCollideThroughBar`).

## Model

| member | source | states |
|---|---|---|
| Fnv.SeedFromString | frontend/script.js:64-71 | The loop over `charCodeAt` returns the 32-bit FNV recurrence over the string's UTF-16 code units, from 2166136261 and multiplying by 16777619 modulo 2^32 |
| Fnv.AsciiSeedIsFnv1a | frontend/script.js:64-71 | For ASCII text the seed equals standard 32-bit FNV-1a over the UTF-8 octets |
| Fnv.NonAsciiSeedDiffersFromFnv1a | frontend/script.js:64-71 | For "é" (one code unit 0xE9, two octets C3 A9) the seed differs from byte-wise FNV-1a |
| Fnv.SeedOfA | frontend/script.js:64-71 | The seed of "a" is 0xE40C292C, the published FNV-1a test vector |
| Random.FromUint32 | frontend/script.js:77 | A 32-bit value divided by 4294967296 lies in [0, 1) |
| Random.Pick | frontend/script.js:84 | `Math.floor(draw * (i + 1))` is an index in [0, i], so every swap is in bounds |
| Random.PickOfUint32 | frontend/script.js:84 | For a 32-bit draw t the floor equals the integer quotient `(t * (i + 1)) div 2^32` |
| Mulberry.OutputAt | frontend/script.js:72-79 | For a counter-based generator, the k-th call returns the output of the seed advanced k + 1 times, whatever the output function |
| Mulberry.OutputsPrefix | frontend/script.js:72-79 | For a counter-based generator, making more calls leaves the earlier values unchanged |
| Mulberry.DrawIsScrambledCounter | frontend/script.js:72-79 | The k-th call returns the scramble of the seed advanced k + 1 times by 0x6D2B79F5 modulo 2^32, divided by 2^32 |
| Mulberry.CounterAfterStep | frontend/script.js:73 | Each call adds 0x6D2B79F5 modulo 2^32 to the counter the previous calls reached |
| Mulberry.DrawsPrefix | frontend/script.js:72-79 | Making more calls leaves the earlier values unchanged |
| Mulberry.MixVectors | frontend/script.js:73-77 | Known outputs of the scramble: the first call of `mulberry32(0)` returns 0x4434B462 / 2^32 (0.26642920868471265), and the first call seeded with 0x0E4EB658, the hash of "daily:2024-01-01", returns 0x8EC79C88 / 2^32 |
| Shuffle.Swap | frontend/script.js:85 | The destructuring swap exchanges positions i and j and leaves every other position alone |
| Shuffle.SwapIsPermutation | frontend/script.js:85 | The swap keeps the multiset of elements |
| Shuffle.ShuffleFromIsPermutation | frontend/script.js:83-86 | Whatever the draws, the loop from i down to 1 keeps the multiset of elements |
| Shuffle.SeededShuffle | frontend/script.js:80-88 | `seededShuffle` returns a permutation of its argument, fixed by the array and the seed string alone |
| Shuffle.RandomShuffle | frontend/script.js:91-98 | `shuffle` returns a permutation of its argument whatever the `Math.random` draws |
| Shuffle.SeededIsRandomShuffleWithGenerator | frontend/script.js:80-98 | `seededShuffle` is `shuffle` with the k-th draw replaced by mulberry32's k-th output for the hashed seed |
| Shuffle.DrawIndex | frontend/script.js:84 | One generator call advances the counter once, and the integer index computation gives the floored index, at most i |
| Shuffle.CounterIteration | frontend/script.js:83-86 | One iteration, one generator call and one swap, turns the loop from i into the loop from i - 1 on the swapped array |
| Shuffle.CounterShuffleLoop | frontend/script.js:81-87 | The loop over a copy, calling a counter-based generator once per iteration, returns the functional shuffle fed that generator's draws |
| Shuffle.OracleIteration | frontend/script.js:93-96 | One iteration of `shuffle`, taking the next `Math.random()` draw and swapping, turns the loop from i into the loop from i - 1 on the swapped array with the remaining draws |
| Shuffle.RandomShuffleLoop | frontend/script.js:91-98 | The loop over a copy, calling `Math.random()` once per iteration, computes exactly the functional `shuffle`, a permutation of the input |
| Shuffle.SeededShuffleLoop | frontend/script.js:80-88 | Hashing the seed string and running the loop with mulberry32 computes exactly the functional seeded shuffle, a permutation of the input |
| Quiz.BuildOrder | frontend/script.js:197-205 | Daily: the first min(10, n) entries of the seeded shuffle for "daily:" + day. Classic: the first min(99999, n) entries of a random shuffle. Both draw only from the list, and classic is a permutation when n <= 99999 |
| Quiz.DailyOrderIgnoresRandom | frontend/script.js:197-201 | The daily order does not depend on `Math.random`, so every player gets the same one |
| Quiz.SampleOptions | frontend/script.js:225-229 | When the sampling loop finishes it has four distinct options, keeps the answer first, and takes every option from the run's names |
| Quiz.BuildOptions | frontend/script.js:225-230 | The shown options are four distinct names of the run, one of them the answer |
| Quiz.ShuffledOptions | frontend/script.js:230 | Shuffling distinct sampled options is a permutation of them: they stay distinct, the answer stays among them and no new name comes in |
| Quiz.OptionsNeedFourNames | frontend/script.js:225-229 | The loop can only finish when the run holds at least four distinct names |
| Quiz.RenderQuestion | frontend/script.js:208-219 | Reaching the end of the order completes the run; otherwise flag `index` is asked and its name becomes the answer; score and index are untouched |
| Quiz.Reset | frontend/script.js:323-348 | A reset run starts with score 0 and index 0, asking the first flag, or completed when the order is empty |
| Quiz.StartGame | frontend/script.js:323-348 | A new run plays exactly the order `buildOrder` returns, starts at score 0 and index 0, and satisfies the session invariant |
| Quiz.OnAnswer | frontend/script.js:247-265 | The right name increments score and index together and never fails; any other name fails the run with score and index unchanged; the invariant score == index is kept |
| Quiz.OnTimeout | frontend/script.js:185-189 | The countdown running out fails the run with score and index unchanged |
| Quiz.RunKeepsValid | frontend/script.js:247-265 | After any sequence of answers and timeouts, score equals index and index stays within the order |
| Quiz.FailsAtFirstMiss | frontend/script.js:253-263 | A miss after k right answers ends the run as failed with k more points |
| Quiz.CompletesWhenAllRight | frontend/script.js:213-215 | Answering every remaining flag right completes the run with a score equal to the length of the order |
| Quiz.FreshRunFailsWithScore | frontend/script.js:323-348 | From a reset, a miss on question k + 1 leaves exactly score k |
| Quiz.FreshRunCompletes | frontend/script.js:323-348 | From a reset, all right answers complete the run with a score equal to the length of the order |
| Quiz.ClickAsWritten | frontend/script.js:247-265 | A click on a disabled button does nothing. On an enabled one, with no check of the run's phase, the right name adds one to score and index and never fails (fresh buttons come only while a flag is asked); any other name fails the run and leaves the buttons disabled |
| Quiz.TimeoutAsWritten | frontend/script.js:185-188 | The countdown fails a run being asked, with score and index unchanged, and leaves the buttons as they were |
| Quiz.LateClickRevivesTimedOutRun | frontend/script.js:247-257 | After the countdown fails a run, a click on the right name still scores one more and leaves the run no longer failed, where `Quiz.Run` keeps it failed with its score |
| Quiz.RunAsWrittenAgreesWithoutTimeouts | frontend/script.js:247-265 | When the countdown never runs out, the code as written and `Quiz.Run` reach the same session after any clicks |
| Quiz.RunAsWrittenIgnoresEnded | frontend/script.js:250-251 | Once the buttons are disabled and no flag is asked, no click or countdown changes the page |
| ScoreStore.Validate | backend/server.js:142-173 | Each 400 error happens exactly when its condition holds and the earlier checks passed: empty trimmed name, then a negative or non-finite score, then time, then daily without a date. Otherwise the candidate carries the trimmed name, the submitted score and time (0 and 999999 when absent), the mode, the day for daily only, the key and the clock |
| ScoreStore.IsBetterIsStrictOrder | backend/server.js:51-56 | `isBetter` is irreflexive, asymmetric and transitive; equal score and equal time is never better |
| ScoreStore.IsBetterVectors | backend/server.js:51-56 | Against 5 points in 12.3 s: 6 points wins even in 99 s, 4 points loses even in 1 s, 5 points wins in 9 s and loses in 12.3 s or 20 s |
| ScoreStore.NotBetterIsTransitive | backend/server.js:51-56 | "Not better" is transitive, so `isBetter` ranks records by (score, time) alone |
| ScoreStore.FindKey | backend/server.js:175 | `findIndex` gives the first record with the key, or none when no record has it |
| ScoreStore.Upsert | backend/server.js:175-184 | A new key appends the candidate with updated; at the first record with the key, a strictly better candidate replaces it in place with updated, otherwise nothing changes and updated is false. No other record changes, the length grows by at most one, and at most one record per key is kept |
| ScoreStore.UpsertKeepsWellFormed | backend/server.js:175-184 | Upserting a well-formed candidate into a store of well-formed records leaves only well-formed records |
| ScoreStore.Submit | backend/server.js:141-188 | A rejected submission leaves the store untouched; an accepted one is the upsert of its candidate; one record per key and well-formed records are preserved |
| ScoreStore.SubmitTwiceKeepsBetter | backend/server.js:175-184 | Two submissions under one new key leave one record, the better one, with the first winning ties |
| ScoreStore.UpsertOverOne | backend/server.js:175-184 | Over a stored record with the same key, the upsert keeps the better of the two and reports whether it replaced |
| ScoreStore.FasterRunReplacesLowerScoreDoesNot | backend/server.js:141-188 | For one player: 5 points in 12.3 s is saved, 5 points in 9.0 s replaces it (`updated` true, stored time 9.0), and a later 3 points in 5.0 s is refused with the store unchanged |
| ScoreStore.KeyIgnoresCase | backend/server.js:160-163 | Names that differ only in letter case share one key |
| ScoreStore.KeyVectors | backend/server.js:160-163 | Player "Ann" is keyed as "ann", a bar and "classic" in classic mode, and as "ann", a bar, "daily", a bar and "2024-01-01" on that day |
| ScoreStore.KeyIsInjective | backend/server.js:160-163 | For names without a bar, equal keys mean the same lower-cased name and the same day (or both classic) |
| ScoreStore.KeysCollideThroughBar | backend/server.js:160-163 | With a bar in the name, the classic key of one player can equal the daily key of another (a name "a", bar, "daily", bar, "x" against player "a" on day "x", bar, "classic") |
| ScoreStore.OtherModesShareClassicKey | backend/server.js:160-170 | A mode other than "daily" gets the classic key of the same player but keeps its own mode |
| Ranking.Filter | backend/server.js:130-134 | A record is kept exactly when its mode (missing counts as classic) is the requested one and, for daily, its date matches; every occurrence of a kept record is kept and no other |
| Ranking.Candidates | backend/server.js:126-135 | Daily without a date gives nothing; otherwise exactly the matching records, each as often as it is stored |
| Ranking.Insert | backend/server.js:137 | Inserting into a ranked list gives a ranked list with one more element |
| Ranking.SortByRank | backend/server.js:137 | The sort gives a permutation in which no record is better than one placed before it |
| Ranking.PrefixOfSortedIsTop | backend/server.js:138 | No record cut from a ranked list is better than a record kept |
| Ranking.Ranking | backend/server.js:125-139 | At most ten matching records, ranked by score descending then time ascending, none better left out; empty for daily without a date |
| Ranking.Top | backend/server.js:137-138 | Sorting and keeping the first ten gives min(10, n) records in ranked order, drawn from the input (as a sub-multiset), with no record left out better than one kept |
| Ranking.SmallRankingListsAll | backend/server.js:137-138 | With ten or fewer matches, every match is listed |
| Text.CollapseSpaces | backend/server.js:63 | `/\s+/g -> " "` leaves only single plain spaces, keeps every non-space character in order, is empty only for empty input, and starts and ends with a space exactly when the input starts and ends with whitespace (a leading or trailing run becomes one space) |
| Text.TrimStart | backend/server.js:64 | The result is the longest suffix not starting with whitespace |
| Text.TrimEnd | backend/server.js:64 | The result is the longest prefix not ending with whitespace |
| Text.CollapseKeepsWords | backend/server.js:63 | Replacing each whitespace run with one space keeps the words (the maximal runs of non-whitespace): none is merged, split or lost |
| Text.WordsOfTrim | backend/server.js:64 | Trimming keeps the words |
| Text.NormalNameIsUnwords | backend/server.js:61-65 | A name with single plain spaces and none at the ends is its words joined by single spaces, so its words determine it |
| Countries.NormalizeName | backend/server.js:61-65 | The result has only single plain spaces, none at either end, and the same words as the input |
| Countries.NormalizeNameJoinsWords | backend/server.js:61-65 | `normalizeName` returns the input's words joined by single spaces |
| Countries.NormalNameIsFixed | backend/server.js:61-65 | A name already in normal form is unchanged |
| Countries.NormalizeNameIsIdempotent | backend/server.js:61-65 | Normalising twice equals normalising once |
| Countries.Entry | backend/server.js:69-72 | The code is the map key lower-cased and the name is the value's words joined by single spaces |
| Countries.DropBlocked | backend/server.js:75-76 | An entry survives exactly when its code is not "an", and every occurrence of a surviving entry is kept |
| Countries.Cleaned | backend/server.js:69-76 | The cleaned list holds exactly the converted entries whose code is not "an", each as often as the map produced it |
| Countries.CleanedKeepsCodesUnique | backend/server.js:69-76 | Distinct lower-cased map keys give distinct codes |
| Countries.MissingExtras | backend/server.js:79-82 | An extra is appended exactly when its code is not already present |
| Countries.ExtrasHaveUniqueCodes | backend/server.js:25-34 | The five extra codes are distinct, lower-case and not blocked |
| Countries.WithExtras | backend/server.js:79-82 | The list is kept as a prefix, every extra code ends up present, and only missing extras are added |
| Countries.BuildCountriesFromMap | backend/server.js:67-82 | The codes are lower-case with no "an"; every extra code is present; an extra is added only when the map lacked its code |
| Countries.BuildKeepsCodesUnique | backend/server.js:67-82 | With distinct lower-cased map keys, no code appears twice |

## Left out

- DOM work, the name gate and CSS classes are not modelled. They are UI glue with no state beyond what `Quiz` keeps; of the buttons, only whether they are enabled is kept (`Quiz.Page`).
- Timers (`requestAnimationFrame`, `performance.now`, `setTimeout`) are wall-clock driven. The countdown appears only as the `Timeout` event. The 120 ms and 220 ms delays are modelled as immediate.
- Quiz.OnAnswer: requires a flag being asked, so `Quiz.Run` ignores every event once the run has ended. The code does not. The countdown's `gameOver(false)` (frontend/script.js:185-188, 268-320) stops the timer but leaves the option buttons enabled. Only `onAnswer` disables them (frontend/script.js:250-251), and it checks no phase. A right click after a timeout therefore scores, moves on and asks the next flag, after the failed run was already auto-saved. Whether a click can reach the buttons then depends on the game-over overlay's styling, which is not part of this model. `Quiz.FailsAtFirstMiss` says a miss ends the run; for a timeout miss that holds only under this choice. The code as written is `Quiz.ClickAsWritten` and `Quiz.TimeoutAsWritten` (see "## Findings").
- Network and file I/O (`fetch`, `readDB`/`writeDB`, the countries cache and download, express routing, boot) are not modelled. The store is a sequence, and `readDB`'s empty-on-corruption fallback is I/O behaviour.
- `Math.random` is an oracle. `Date.now` and `localDayKey` are parameters.
- Random.Pick: the draw and the product are exact reals, not doubles. For a 32-bit draw the double product is exact while `t * (i + 1) < 2^53`, i.e. for arrays of at most 2^21 elements; for `Math.random()` draws in longer arrays, rounding is not modelled.
- Mulberry.Next: the JavaScript `seed` grows as a double. Only its low 32 bits are read, so the model keeps a `bv32` counter. This is exact while the double stays below 2^53, i.e. for the first ~4.9 million calls; a run makes at most a few hundred.
- Mulberry.DrawIsScrambledCounter: the advance by 0x6D2B79F5 is stated in `bv32` arithmetic, which is addition modulo 2^32, not as an equation over integers.
- Quiz.BuildOptions: the sampling loop has a draw budget. `None` means the budget ran out, and the source would keep drawing. Only the necessary condition (four distinct names) is proved; that some sequence of draws finishes is not.
- Quiz.BuildOrder: in classic mode, the permutation claim is stated only for at most 99999 countries. That is the literal cap in the source.
- Text.ToLower: only ASCII letters are lower-cased. The Unicode case mappings of `toLowerCase` are not modelled.
- Text.IsSpace: follows the WhiteSpace and LineTerminator code points of ECMAScript. Unicode category Zs is taken as its current fixed list.
- Text.CodeUnits: characters are Unicode scalar values, so lone surrogates in a JavaScript string are not representable.
- Countries.BuildCountriesFromMap: the final `localeCompare` sort by name is locale-dependent and is left out. The contract covers the list before that sort. Membership, code and uniqueness claims carry over because the sort is a permutation; order claims do not.
- Countries.Entry: `String(code)` and `String(name)` on non-string map values are not modelled. The map's entries are string pairs in `Object.entries` order.
- Ranking.Ranking: which of several records with equal score and equal time make the top ten is not stated. That choice depends on the stable sort's order of the stored records.
- ScoreStore.Validate: numbers are reals. NaN and the infinities are one `NotFinite` value, `-0` is not distinguished from 0, and double rounding is not modelled. Non-string `name`, `mode` and `date` fields are taken after their `String(...)` coercion.
- Float formatting (`toFixed`, average seconds) in the game-over screen is not modelled.

## Findings

| source | as written | input that shows it | evidently intended | confidence | as-written member | corrected member |
|---|---|---|---|---|---|---|
| frontend/script.js:185-188 | When the countdown runs out, `gameOver(false)` stops the timer and shows the game-over screen but leaves the option buttons enabled, and `onAnswer` (frontend/script.js:247-265) does not check that the run is still going | A run asking any flag: let the countdown run out, then click the right name. Score and index go up by one and the next flag is asked, although the run was already failed and auto-saved with the lower score (`Quiz.LateClickRevivesTimedOutRun`) | A run failed by the countdown stays failed: later clicks change nothing | medium, not executed; a click reaches the buttons only if the game-over overlay does not cover them | Quiz.ClickAsWritten | Quiz.OnAnswer |

=== FILE: catalog.dfy ===
/**
 * The flag entry both halves of the program share: the backend's countries list
 * is made of them (`/countries` sends them as `[code, name]` arrays) and the
 * frontend's quiz order is a sequence of them.
 */
module Catalog {

  /** A `[code, name]` entry: the flag image code and the country's display name. */
  datatype Country = Country(code: string, name: string)
}

=== FILE: collections.dfy ===
/** Small facts about sequences used by several modules. */
module Collections {

  function Min(a: int, b: int): int {
    if a <= b then a else b
  }

  /** No element occurs twice. */
  predicate Distinct<T(==)>(s: seq<T>) {
    forall i, j | 0 <= i < j < |s| :: s[i] != s[j]
  }

  function Elements<T>(s: seq<T>): set<T> {
    set x | x in s
  }

  /** A prefix holds nothing the whole does not, counting repetitions. */
  lemma PrefixMultiset<T>(s: seq<T>, m: nat)
    requires m <= |s|
    ensures multiset(s[..m]) <= multiset(s)
    ensures forall x | x in s[..m] :: x in s
  {
    assert s == s[..m] + s[m..];
  }

  /** A sequence without repetitions has as many distinct elements as it is long. */
  lemma {:induction false} DistinctCardinality<T>(s: seq<T>)
    requires Distinct(s)
    ensures |Elements(s)| == |s|
  {
    if |s| > 0 {
      var t := s[..|s| - 1];
      assert Distinct(t);
      DistinctCardinality(t);
      assert Elements(s) == Elements(t) + {s[|s| - 1]};
      assert s[|s| - 1] !in Elements(t);
    } else {
      assert Elements(s) == {};
    }
  }

  /** A subset is no larger than its superset. */
  lemma {:induction false} SubsetCardinality<T>(a: set<T>, b: set<T>)
    requires a <= b
    ensures |a| <= |b|
    decreases |b|
  {
    if a != {} {
      var x :| x in a;
      SubsetCardinality(a - {x}, b - {x});
    }
  }

  /** Sequences holding the same multiset of elements hold the same set of elements. */
  lemma SameMultisetSameElements<T>(a: seq<T>, b: seq<T>)
    requires multiset(a) == multiset(b)
    ensures Elements(a) == Elements(b)
  {
    forall x | x in a ensures x in b {
      assert x in multiset(a);
    }
    forall x | x in b ensures x in a {
      assert x in multiset(b);
    }
  }

  /** In a sequence without repetitions every value occurs at most once. */
  lemma {:induction false} DistinctCount<T>(s: seq<T>, x: T)
    requires Distinct(s)
    ensures multiset(s)[x] <= 1
  {
    if |s| > 0 {
      var t := s[..|s| - 1];
      assert s == t + [s[|s| - 1]];
      DistinctCount(t, x);
      if x == s[|s| - 1] {
        assert x !in t;
      }
    }
  }

  lemma RepeatCount<T>(s: seq<T>, i: nat, j: nat)
    requires i < j < |s| && s[i] == s[j]
    ensures multiset(s)[s[i]] >= 2
  {
    assert s == s[..j] + s[j..];
    assert s[i] == s[..j][i];
    assert s[j] == s[j..][0];
  }

  /** Rearranging a sequence without repetitions cannot create one. */
  lemma PermutationKeepsDistinct<T>(a: seq<T>, b: seq<T>)
    requires multiset(a) == multiset(b) && Distinct(a)
    ensures Distinct(b)
  {
    forall i, j | 0 <= i < j < |b|
      ensures b[i] != b[j]
    {
      if b[i] == b[j] {
        RepeatCount(b, i, j);
        DistinctCount(a, b[i]);
      }
    }
  }
}

=== FILE: countries.dfy ===
/**
 * The countries list the backend serves (backend/server.js): names normalised
 * with `normalizeName`, codes lower-cased, the obsolete "an" removed, and the
 * five extra flags appended when their code is not already present.
 */
module Countries {
  import opened Collections
  import opened Text
  import opened Catalog

  /** Codes removed from the ISO list ("an", Netherlands Antilles). */
  const Blocked: set<string> := {"an"}

  /** The flags added when the ISO list lacks their code, in this order. */
  const Extras: seq<Country> := [
    Country("gb-eng", "England"),
    Country("gb-sct", "Scotland"),
    Country("gb-wls", "Wales"),
    Country("gb-nir", "Northern Ireland"),
    Country("eu", "European Union")
  ]

  /** Every piece cut out of a single-spaced string is single-spaced. */
  lemma SliceIsSingleSpaced(s: string, lo: nat, hi: nat)
    requires SingleSpaced(s) && lo <= hi <= |s|
    ensures SingleSpaced(s[lo..hi])
  {
    var t := s[lo..hi];
    forall k | 0 <= k < |t| ensures t[k] == s[lo + k] {}
  }

  /** Trimming the front of a single-spaced string keeps it single-spaced. */
  lemma TrimKeepsSingleSpaced(c: string)
    requires SingleSpaced(c)
    ensures SingleSpaced(Trim(c))
  {
    var a := TrimStart(c);
    SliceIsSingleSpaced(c, |c| - |a|, |c|);
    SliceIsSingleSpaced(a, 0, |TrimEnd(a)|);
  }

  /** A trimmed string neither starts nor ends with whitespace. */
  lemma TrimmedEnds(c: string)
    ensures |Trim(c)| > 0 ==> !IsSpace(Trim(c)[0]) && !IsSpace(Trim(c)[|Trim(c)| - 1])
  {
    var a := TrimStart(c);
    var r := TrimEnd(a);
    if |r| > 0 {
      assert r[0] == a[0];
    }
  }

  /** `normalizeName`: whitespace runs become one space, and the ends are trimmed. */
  function NormalizeName(name: string): (r: string)
    ensures IsNormalName(r)
    ensures Words(r) == Words(name)
    ensures Visible(r) == Visible(name)
  {
    var c := CollapseSpaces(name);
    TrimKeepsSingleSpaced(c);
    TrimKeepsVisible(c);
    TrimmedEnds(c);
    CollapseKeepsWords(name);
    WordsOfTrim(c);
    Trim(c)
  }

  /** `normalizeName` is the name's words joined by single spaces. */
  lemma NormalizeNameJoinsWords(name: string)
    ensures NormalizeName(name) == Unwords(Words(name))
  {
    NormalNameIsUnwords(NormalizeName(name));
  }

  /** In a single-spaced string a leading space is followed by a visible character. */
  lemma LeadingSpaceIsAlone(t: string)
    requires SingleSpaced(t) && |t| > 0 && IsSpace(t[0])
    ensures TrimStart(t) == t[1..]
  {
    if |t| > 1 {
      assert t[0] == ' ';
      assert t[1] != ' ';
      assert !IsSpace(t[1..][0]);
    }
  }

  /** A single-spaced string is its own collapse. */
  lemma {:induction false} CollapseKeepsSingleSpaced(t: string)
    requires SingleSpaced(t)
    ensures CollapseSpaces(t) == t
  {
    if |t| > 0 {
      SliceIsSingleSpaced(t, 1, |t|);
      CollapseKeepsSingleSpaced(t[1..]);
      if IsSpace(t[0]) {
        LeadingSpaceIsAlone(t);
        assert t[0] == ' ';
        assert CollapseSpaces(t) == [' '] + CollapseSpaces(t[1..]);
      } else {
        assert CollapseSpaces(t) == [t[0]] + CollapseSpaces(t[1..]);
      }
      assert t == [t[0]] + t[1..];
    }
  }

  /** A name already in normal form is left as it is. */
  lemma NormalNameIsFixed(t: string)
    requires IsNormalName(t)
    ensures NormalizeName(t) == t
  {
    CollapseKeepsSingleSpaced(t);
    if |t| > 0 {
      assert !IsSpace(t[0]) && !IsSpace(t[|t| - 1]);
    }
    assert TrimStart(t) == t;
  }

  /** Normalising twice is normalising once. */
  lemma NormalizeNameIsIdempotent(name: string)
    ensures NormalizeName(NormalizeName(name)) == NormalizeName(name)
  {
    NormalNameIsFixed(NormalizeName(name));
  }

  /** One map entry as the loader turns it into a list entry. */
  function Entry(code: string, name: string): (c: Country)
    ensures c.code == ToLower(code) && IsLowerCase(c.code)
    ensures c.name == Unwords(Words(name)) && Words(c.name) == Words(name) && IsNormalName(c.name)
  {
    NormalizeNameJoinsWords(name);
    ToLowerIsLowerCase(code);
    Country(ToLower(code), NormalizeName(name))
  }

  /** The codes of a list, in order. */
  function Codes(list: seq<Country>): (r: seq<string>)
    ensures |r| == |list|
    ensures forall k | 0 <= k < |list| :: r[k] == list[k].code
  {
    seq(|list|, k requires 0 <= k < |list| => list[k].code)
  }

  /** Every map entry turned into a list entry (the `map` step). */
  function Converted(entries: seq<(string, string)>): (r: seq<Country>)
    ensures |r| == |entries|
    ensures forall k | 0 <= k < |entries| :: r[k] == Entry(entries[k].0, entries[k].1)
  {
    seq(|entries|, k requires 0 <= k < |entries| => Entry(entries[k].0, entries[k].1))
  }

  /** The `filter` step: entries with a blocked code are dropped, the rest keep their order. */
  function DropBlocked(list: seq<Country>): (r: seq<Country>)
    ensures forall c :: c in r <==> c in list && c.code !in Blocked
    ensures forall c :: multiset(r)[c] == if c.code in Blocked then 0 else multiset(list)[c]
    ensures |r| <= |list|
  {
    if |list| == 0 then []
    else
      var rest := DropBlocked(list[1..]);
      assert list == [list[0]] + list[1..];
      if list[0].code in Blocked then rest else [list[0]] + rest
  }

  /** No two list entries share a code. */
  predicate UniqueCodes(list: seq<Country>) {
    Distinct(Codes(list))
  }

  lemma {:induction false} DropBlockedKeepsCodesUnique(list: seq<Country>)
    requires UniqueCodes(list)
    ensures UniqueCodes(DropBlocked(list))
  {
    if |list| > 0 {
      var tail := list[1..];
      assert Codes(tail) == Codes(list)[1..];
      DropBlockedKeepsCodesUnique(tail);
      var rest := DropBlocked(tail);
      if list[0].code !in Blocked {
        HeadCodeNotKept(list);
        var r := [list[0]] + rest;
        forall i, j | 0 <= i < j < |r| ensures Codes(r)[i] != Codes(r)[j] {
          if i == 0 {
            assert r[j] in rest;
          } else {
            assert Codes(rest)[i - 1] != Codes(rest)[j - 1];
          }
        }
      }
    }
  }

  /** With unique codes, nothing kept from the tail shares the head's code. */
  lemma HeadCodeNotKept(list: seq<Country>)
    requires UniqueCodes(list) && |list| > 0
    ensures forall c | c in DropBlocked(list[1..]) :: c.code != list[0].code
  {
    var tail := list[1..];
    forall c | c in DropBlocked(tail) ensures c.code != list[0].code {
      assert c in tail;
      var m :| 0 <= m < |tail| && tail[m] == c;
      assert Codes(list)[m + 1] == c.code;
    }
  }

  /** The `map` and `filter` steps of the loader on `Object.entries` of the map, in order. */
  function Cleaned(entries: seq<(string, string)>): (r: seq<Country>)
    ensures forall c :: c in r <==> c in Converted(entries) && c.code !in Blocked
    ensures forall c :: multiset(r)[c] == if c.code in Blocked then 0 else multiset(Converted(entries))[c]
    ensures forall c | c in r :: IsLowerCase(c.code) && IsNormalName(c.name)
    ensures |r| <= |entries|
  {
    DropBlocked(Converted(entries))
  }

  /** When the map's keys differ once lower-cased, so do the codes of the cleaned list. */
  lemma CleanedKeepsCodesUnique(entries: seq<(string, string)>)
    requires Distinct(Codes(Converted(entries)))
    ensures UniqueCodes(Cleaned(entries))
  {
    DropBlockedKeepsCodesUnique(Converted(entries));
  }

  /** The extras whose code is not in `existing`, in order (the `for … push` loop). */
  function MissingExtras(extras: seq<Country>, existing: set<string>): (r: seq<Country>)
    ensures forall c | c in r :: c in extras && c.code !in existing
    ensures forall c | c in extras :: c.code !in existing ==> c in r
    ensures |r| <= |extras|
  {
    if |extras| == 0 then []
    else
      var rest := MissingExtras(extras[1..], existing);
      if extras[0].code in existing then rest else [extras[0]] + rest
  }

  /** Appending only extras with distinct codes adds no duplicate among them. */
  lemma {:induction false} MissingExtrasKeepCodesUnique(extras: seq<Country>, existing: set<string>)
    requires Distinct(Codes(extras))
    ensures UniqueCodes(MissingExtras(extras, existing))
  {
    if |extras| > 0 {
      assert Codes(extras[1..]) == Codes(extras)[1..];
      MissingExtrasKeepCodesUnique(extras[1..], existing);
      var rest := MissingExtras(extras[1..], existing);
      if extras[0].code !in existing {
        var r := [extras[0]] + rest;
        forall i, j | 0 <= i < j < |r| ensures Codes(r)[i] != Codes(r)[j] {
          if i == 0 {
            assert r[j] in rest;
            var m :| 0 <= m < |extras[1..]| && extras[1..][m] == r[j];
            assert Codes(extras)[m + 1] == r[j].code;
          } else {
            assert Codes(rest)[i - 1] != Codes(rest)[j - 1];
          }
        }
      }
    }
  }

  lemma ExtrasHaveUniqueCodes()
    ensures Distinct(Codes(Extras))
    ensures forall c | c in Extras :: c.code !in Blocked && IsLowerCase(c.code)
  {
    var cs := Codes(Extras);
    assert cs == ["gb-eng", "gb-sct", "gb-wls", "gb-nir", "eu"];
    assert cs[0][3..] == "eng" && cs[1][3..] == "sct" && cs[2][3..] == "wls" && cs[3][3..] == "nir";
    assert |cs[4]| == 2;
  }

  /** The set of codes of a list, as `new Set(filtered.map(([c]) => c))`. */
  function CodeSet(list: seq<Country>): (r: set<string>)
    ensures forall c | c in list :: c.code in r
    ensures forall x | x in r :: exists c | c in list :: c.code == x
  {
    set c | c in list :: c.code
  }

  /** Appends each extra flag whose code `list` lacks (the `existing` set and the `push` loop). */
  function WithExtras(list: seq<Country>): (r: seq<Country>)
    ensures |list| <= |r| <= |list| + |Extras|
    ensures r[..|list|] == list
    ensures forall e | e in Extras :: e.code in CodeSet(r)
    ensures forall e | e in Extras :: e.code !in CodeSet(list) ==> e in r
    ensures forall k | |list| <= k < |r| :: r[k] in Extras && r[k].code !in CodeSet(list)
    ensures forall c | c in r :: c in list || c in Extras
  {
    var existing := CodeSet(list);
    var added := MissingExtras(Extras, existing);
    var r := list + added;
    forall e | e in Extras ensures e.code in CodeSet(r) {
      if e.code in existing {
        var c :| c in list && c.code == e.code;
        assert c in r;
      } else {
        assert e in r;
      }
    }
    forall k | |list| <= k < |r| ensures r[k] in added {
      assert r[k] == added[k - |list|];
    }
    assert r[..|list|] == list;
    r
  }

  /**
   * `buildCountriesFromMap` before its cosmetic sort by name: the cleaned map
   * entries, then each extra flag whose code the map did not provide.
   */
  function BuildCountriesFromMap(entries: seq<(string, string)>): (r: seq<Country>)
    ensures |Cleaned(entries)| <= |r| <= |entries| + |Extras|
    ensures r[..|Cleaned(entries)|] == Cleaned(entries)
    ensures forall c | c in r :: c.code !in Blocked && IsLowerCase(c.code)
    ensures forall e | e in Extras :: e.code in CodeSet(r)
    ensures forall e | e in Extras :: e.code !in CodeSet(Cleaned(entries)) ==> e in r
    ensures forall k | |Cleaned(entries)| <= k < |r| :: r[k] in Extras && r[k].code !in CodeSet(Cleaned(entries))
  {
    ExtrasHaveUniqueCodes();
    WithExtras(Cleaned(entries))
  }

  /** When the map's lower-cased keys differ, no code appears twice in the list. */
  lemma BuildKeepsCodesUnique(entries: seq<(string, string)>)
    requires Distinct(Codes(Converted(entries)))
    ensures UniqueCodes(BuildCountriesFromMap(entries))
  {
    var filtered := Cleaned(entries);
    var added := MissingExtras(Extras, CodeSet(filtered));
    var r := BuildCountriesFromMap(entries);
    assert r == WithExtras(filtered) == filtered + added;
    ExtrasHaveUniqueCodes();
    CleanedKeepsCodesUnique(entries);
    MissingExtrasKeepCodesUnique(Extras, CodeSet(filtered));
    forall i, j | 0 <= i < j < |r| ensures Codes(r)[i] != Codes(r)[j] {
      if j < |filtered| {
        assert Codes(filtered)[i] != Codes(filtered)[j];
      } else if i >= |filtered| {
        assert Codes(added)[i - |filtered|] != Codes(added)[j - |filtered|];
      } else {
        assert r[j] == added[j - |filtered|] && r[i] == filtered[i];
        assert r[j] in added && r[i] in filtered;
      }
    }
  }
}

=== FILE: fnv.dfy ===
/**
 * `seedFromString` (frontend/script.js): the 32-bit FNV-1a recurrence applied to
 * the UTF-16 code units of a string. `Math.imul` is a wrapping 32-bit multiply and
 * `>>> 0` reads the signed result back as unsigned, so `bv32` models both exactly.
 */
module Fnv {
  import opened Text

  const OffsetBasis: bv32 := 2166136261
  const Prime: bv32 := 16777619

  /** One round: XOR the unit into the low bits, then multiply by the prime modulo 2^32. */
  function Round(h: bv32, unit: int): bv32
    requires 0 <= unit < 0x1_0000
  {
    (h ^ (unit as bv32)) * Prime
  }

  /** The hash of a sequence of code units, defined on its last unit. */
  function HashUnits(units: seq<CodeUnit>): bv32 {
    if |units| == 0 then OffsetBasis
    else Round(HashUnits(units[..|units| - 1]), units[|units| - 1])
  }

  /** The value `seedFromString` returns for `s`. */
  function SeedOf(s: string): bv32 {
    HashUnits(CodeUnits(s))
  }

  /** Hashing one more unit is one more round. */
  lemma HashUnitsStep(units: seq<CodeUnit>, i: nat)
    requires i < |units|
    ensures HashUnits(units[..i + 1]) == Round(HashUnits(units[..i]), units[i])
  {
    assert units[..i + 1][..i] == units[..i];
  }

  /** `seedFromString`, as the loop over `charCodeAt` that the source runs. */
  method SeedFromString(s: string) returns (h: bv32)
    ensures h == HashUnits(CodeUnits(s))
  {
    var units := CodeUnits(s);
    h := OffsetBasis;
    var i := 0;
    while i < |units|
      invariant 0 <= i <= |units|
      invariant h == HashUnits(units[..i])
    {
      HashUnitsStep(units, i);
      h := Round(h, units[i]);
      i := i + 1;
    }
    assert units[..i] == units;
  }

  type Byte = n: int | 0 <= n < 0x100

  /** Standard 32-bit FNV-1a over octets, written as a left-to-right accumulation. */
  function Fnv1aFrom(h: bv32, bytes: seq<Byte>): bv32
    decreases |bytes|
  {
    if |bytes| == 0 then h else Fnv1aFrom(Round(h, bytes[0]), bytes[1..])
  }

  function Fnv1a(bytes: seq<Byte>): bv32 {
    Fnv1aFrom(OffsetBasis, bytes)
  }

  /** The UTF-8 octets of an ASCII string: one octet per character, equal to its code. */
  function AsciiOctets(s: string): (r: seq<Byte>)
    requires IsAscii(s)
    ensures |r| == |s|
  {
    seq(|s|, k requires 0 <= k < |s| => s[k] as int)
  }

  lemma {:induction false} Fnv1aFromSnoc(h: bv32, bytes: seq<Byte>, b: Byte)
    ensures Fnv1aFrom(h, bytes + [b]) == Round(Fnv1aFrom(h, bytes), b)
    decreases |bytes|
  {
    if |bytes| > 0 {
      assert (bytes + [b])[1..] == bytes[1..] + [b];
      Fnv1aFromSnoc(Round(h, bytes[0]), bytes[1..], b);
    }
  }

  lemma {:induction false} HashUnitsIsFnv1a(units: seq<CodeUnit>, bytes: seq<Byte>)
    requires |units| == |bytes|
    requires forall k | 0 <= k < |units| :: units[k] == bytes[k]
    ensures HashUnits(units) == Fnv1a(bytes)
  {
    if |units| > 0 {
      var n := |units| - 1;
      HashUnitsIsFnv1a(units[..n], bytes[..n]);
      Fnv1aFromSnoc(OffsetBasis, bytes[..n], bytes[n]);
      assert bytes[..n] + [bytes[n]] == bytes;
    }
  }

  /** On ASCII text the code-unit hash coincides with standard FNV-1a over the UTF-8 octets. */
  lemma AsciiSeedIsFnv1a(s: string)
    requires IsAscii(s)
    ensures SeedOf(s) == Fnv1a(AsciiOctets(s))
  {
    CodeUnitsOfBasicPlane(s);
    HashUnitsIsFnv1a(CodeUnits(s), AsciiOctets(s));
  }

  /** Off ASCII the two differ: "é" is one code unit 0xE9 but the two UTF-8 octets C3 A9. */
  lemma NonAsciiSeedDiffersFromFnv1a()
    ensures SeedOf("\U{E9}") != Fnv1a([0xC3, 0xA9])
  {
    assert CodeUnits("\U{E9}") == [0xE9];
    assert [0xE9][..0] == [];
    assert (0xE9 as int) as bv32 == 0xE9;
    assert (0xC3 as int) as bv32 == 0xC3;
    assert (0xA9 as int) as bv32 == 0xA9;
    assert SeedOf("\U{E9}") == Round(OffsetBasis, 0xE9) == 0x6C0B6C44;
    assert Round(OffsetBasis, 0xC3) == 0x460B3072;
    assert Fnv1a([0xC3, 0xA9]) == Round(0x460B3072, 0xA9) == 0x1E9DE8C1;
  }

  /** The published FNV-1a test vector for "a". */
  lemma SeedOfA()
    ensures SeedOf("a") == 0xE40C292C
  {
    assert CodeUnits("a") == [97];
    assert [97][..0] == [];
    assert (97 as int) as bv32 == 97;
    assert SeedOf("a") == Round(OffsetBasis, 97);
  }
}

=== FILE: mulberry.dfy ===
/**
 * `mulberry32` (frontend/script.js): a closure over a numeric `seed` that, on each
 * call, adds 0x6D2B79F5 to `seed`, scrambles its low 32 bits and returns the
 * scrambled value divided by 2^32.
 *
 * The JavaScript `seed` grows as a double, but every use of it goes through
 * ToInt32/ToUint32, so only its low 32 bits matter: the state is a `bv32`
 * counter and `+` on `bv32` is the addition modulo 2^32.
 */
module Mulberry {
  import opened Random

  const Increment: bv32 := 0x6D2B79F5

  /**
   * The scrambling applied to the counter. `Math.imul`, `^`, `|`, `>>>` and the
   * `t + ...` sum (read back through ToInt32 by `^=`) all agree with `bv32`
   * arithmetic, whose `*` and `+` wrap modulo 2^32.
   */
  function Mix(s: bv32): bv32 {
    var t1 := (s ^ (s >> 15)) * (s | 1);
    var t2 := t1 ^ (t1 + (t1 ^ (t1 >> 7)) * (t1 | 61));
    t2 ^ (t2 >> 14)
  }

  /** The low 32 bits of the closure's captured `seed` variable. */
  datatype Generator = Generator(counter: bv32)

  /** The state after one call. */
  function Next(g: Generator): Generator {
    Generator(g.counter + Increment)
  }

  /** What a call returns once it has advanced the counter to `counter`: `Mix(counter) / 2^32`. */
  function Output(counter: bv32): Unit {
    FromUint32(Mix(counter))
  }

  /** The counter after `k` calls: the seed advanced `k` times by 0x6D2B79F5 modulo 2^32. */
  function CounterAfter(seed: bv32, k: nat): bv32
    decreases k
  {
    if k == 0 then seed else CounterAfter(seed + Increment, k - 1)
  }

  /**
   * The values of the first `n` calls of a counter-based generator started at `g`
   * that returns `out(counter)` once it has advanced the counter, in call order.
   * Everything below about the call sequence holds whatever `out` is.
   */
  function Outputs(out: bv32 -> Unit, g: Generator, n: nat): (r: seq<Unit>)
    ensures |r| == n
    decreases n
  {
    if n == 0 then []
    else
      var next := Next(g);
      [out(next.counter)] + Outputs(out, next, n - 1)
  }

  /**
   * Known values: the first call of `mulberry32(0)` returns 0x4434B462 / 2^32
   * (0.26642920868471265), and the first call seeded with 0x0E4EB658, the seed of
   * "daily:2024-01-01", returns 0x8EC79C88 / 2^32.
   */
  lemma MixVectors()
    ensures Mix(0 + Increment) == 0x4434B462
    ensures Mix(0x0E4EB658 + Increment) == 0x8EC79C88
    ensures Draws(Generator(0), 1) == [FromUint32(0x4434B462)]
  {
  }

  /** The values of the first `n` calls of the mulberry32 closure. */
  function Draws(g: Generator, n: nat): (r: seq<Unit>)
    ensures |r| == n
  {
    Outputs(Output, g, n)
  }

  /** Each call adds the increment once more to the counter the previous calls reached. */
  lemma {:induction false} CounterAfterStep(seed: bv32, k: nat)
    ensures CounterAfter(seed, k + 1) == CounterAfter(seed, k) + Increment
    decreases k
  {
    assert CounterAfter(seed, k + 1) == CounterAfter(seed + Increment, k);
    if k > 0 {
      CounterAfterStep(seed + Increment, k - 1);
    } else {
      assert CounterAfter(seed + Increment, 0) == seed + Increment;
    }
  }

  /** The k-th call (from 0) returns `out` of the seed advanced k + 1 times. */
  lemma {:induction false} OutputAt(out: bv32 -> Unit, g: Generator, n: nat, k: nat)
    requires k < n
    ensures Outputs(out, g, n)[k] == out(CounterAfter(g.counter, k + 1))
    decreases n
  {
    if k > 0 {
      OutputAt(out, Next(g), n - 1, k - 1);
    }
  }

  /**
   * The generator is counter-based: the k-th call (from 0) returns the scrambled
   * value of the seed advanced k + 1 times, whatever happened in between.
   */
  lemma DrawIsScrambledCounter(g: Generator, n: nat, k: nat)
    requires k < n
    ensures Draws(g, n)[k] == Output(CounterAfter(g.counter, k + 1))
  {
    OutputAt(Output, g, n, k);
  }

  lemma {:induction false} OutputsPrefix(out: bv32 -> Unit, g: Generator, m: nat, n: nat)
    requires m <= n
    ensures Outputs(out, g, m) == Outputs(out, g, n)[..m]
    decreases m
  {
    if m > 0 {
      OutputsPrefix(out, Next(g), m - 1, n - 1);
    }
  }

  /** Taking more draws does not change the earlier ones. */
  lemma DrawsPrefix(g: Generator, m: nat, n: nat)
    requires m <= n
    ensures Draws(g, m) == Draws(g, n)[..m]
  {
    OutputsPrefix(Output, g, m, n);
  }
}

=== FILE: quiz.dfy ===
/**
 * The quiz session of frontend/script.js: building the flag order for a run
 * (`buildOrder`), the four answer options of a question (`renderQuestion`), and
 * the score/index progression driven by `resetGame`, `renderQuestion` and
 * `onAnswer`, with the countdown's expiry as a `Timeout` event.
 */
module Quiz {
  import opened Wrappers
  import opened Collections
  import opened Random
  import opened Shuffle
  import opened Catalog

  datatype Mode = Classic | Daily

  /** Flags per daily run. */
  const DailyCount: nat := 10
  /** The classic "all flags" cap, a literal in the source. */
  const ClassicCount: nat := 99999

  /** The seed string of a day: `daily:` followed by the local date key. */
  function DailySeed(dailyKey: string): string {
    "daily:" + dailyKey
  }

  /**
   * `buildOrder`: in daily mode the first ten entries of the seeded shuffle for the
   * day, in classic mode a `Math.random` shuffle cut at the classic cap.
   */
  function BuildOrder(mode: Mode, countries: seq<Country>, dailyKey: string, random: Oracle)
    : (order: seq<Country>)
    ensures mode == Daily ==>
      && |order| == Min(DailyCount, |countries|)
      && order == SeededShuffle(countries, DailySeed(dailyKey))[..|order|]
    ensures mode == Classic ==>
      && |order| == Min(ClassicCount, |countries|)
      && order == RandomShuffle(countries, random)[..|order|]
    ensures multiset(order) <= multiset(countries)
    ensures mode == Classic && |countries| <= ClassicCount ==> multiset(order) == multiset(countries)
  {
    match mode
    case Daily =>
      var shuffled := SeededShuffle(countries, DailySeed(dailyKey));
      PrefixMultiset(shuffled, Min(DailyCount, |shuffled|));
      shuffled[..Min(DailyCount, |shuffled|)]
    case Classic =>
      var shuffled := RandomShuffle(countries, random);
      PrefixMultiset(shuffled, Min(ClassicCount, |countries|));
      assert |countries| <= ClassicCount ==> shuffled[..Min(ClassicCount, |countries|)] == shuffled;
      shuffled[..Min(ClassicCount, |countries|)]
  }

  /** Every player gets the same daily order: it does not depend on `Math.random`. */
  lemma DailyOrderIgnoresRandom(countries: seq<Country>, dailyKey: string, r1: Oracle, r2: Oracle)
    ensures BuildOrder(Daily, countries, dailyKey, r1) == BuildOrder(Daily, countries, dailyKey, r2)
  {
  }

  /** The display names of the flags in a run, in order. */
  function Names(order: seq<Country>): (r: seq<string>)
    ensures |r| == |order|
    ensures forall k | 0 <= k < |order| :: r[k] == order[k].name
  {
    seq(|order|, k requires 0 <= k < |order| => order[k].name)
  }

  /**
   * The `while (opts.length < 4)` loop of `renderQuestion`: draw a random name of
   * the run and append it unless it is already an option. `random(next)` is the
   * next draw; `budget` bounds how many draws are made before giving up, and
   * `None` means the budget ran out first. On success it also returns the index
   * of the first unused draw.
   */
  function SampleOptions(names: seq<string>, opts: seq<string>, random: Oracle, next: nat, budget: nat)
    : (r: Option<(seq<string>, nat)>)
    requires |names| > 0
    requires 1 <= |opts| <= 4 && Distinct(opts)
    ensures r.Some? ==>
      && |r.value.0| == 4
      && Distinct(r.value.0)
      && opts <= r.value.0
      && (forall x | x in r.value.0 :: x in opts || x in names)
      && next <= r.value.1 <= next + budget
    decreases budget
  {
    if |opts| == 4 then Some((opts, next))
    else if budget == 0 then None
    else
      var candidate := names[Pick(random(next), |names| - 1)];
      var opts' := if candidate in opts then opts else opts + [candidate];
      SampleOptions(names, opts', random, next + 1, budget - 1)
  }

  /**
   * The four options shown for question `index`: the answer first, three sampled
   * distractors, then shuffled with the following `Math.random` draws.
   */
  function BuildOptions(order: seq<Country>, index: nat, random: Oracle, budget: nat)
    : (r: Option<seq<string>>)
    requires index < |order|
    ensures r.Some? ==>
      && |r.value| == 4
      && Distinct(r.value)
      && order[index].name in r.value
      && (forall x | x in r.value :: x in Names(order))
  {
    var answer := order[index].name;
    assert Names(order)[index] == answer;
    match SampleOptions(Names(order), [answer], random, 0, budget)
    case None => None
    case Some((opts, used)) =>
      assert opts[0] == answer;
      assert forall x | x in opts :: x in Names(order);
      Some(ShuffledOptions(opts, answer, Names(order), Skip(random, used)))
  }

  /**
   * `opts = shuffle(opts)`: the sampled options in the order the draws give,
   * still distinct, still holding the answer and bringing in no new name.
   */
  function ShuffledOptions(opts: seq<string>, answer: string, pool: seq<string>, random: Oracle)
    : (shown: seq<string>)
    requires Distinct(opts) && answer in opts
    requires forall x | x in opts :: x in pool
    ensures multiset(shown) == multiset(opts)
    ensures |shown| == |opts| && Distinct(shown) && answer in shown
    ensures forall x | x in shown :: x in pool
  {
    var shown := RandomShuffle(opts, random);
    PermutationKeepsDistinct(opts, shown);
    MembersOfPermutation(opts, shown, pool);
    assert answer in multiset(opts);
    shown
  }

  lemma MembersOfPermutation<T>(a: seq<T>, b: seq<T>, pool: seq<T>)
    requires multiset(a) == multiset(b)
    requires forall x | x in a :: x in pool
    ensures forall x | x in b :: x in pool
  {
    forall x | x in b
      ensures x in pool
    {
      assert x in multiset(b);
    }
  }


  /**
   * The sampling loop can only finish when the run holds at least four different
   * names; with fewer it draws forever, so no budget is ever enough.
   */
  lemma OptionsNeedFourNames(order: seq<Country>, index: nat, random: Oracle, budget: nat)
    requires index < |order|
    requires BuildOptions(order, index, random, budget).Some?
    ensures |Elements(Names(order))| >= 4
  {
    var opts := BuildOptions(order, index, random, budget).value;
    DistinctCardinality(opts);
    assert Elements(opts) <= Elements(Names(order));
    SubsetCardinality(Elements(opts), Elements(Names(order)));
  }

  /** Where a run stands: still asking, finished with every flag right, or failed. */
  datatype Phase = Asking | Completed | Failed

  /** The session variables `order`, `index`, `score` and `answer`. */
  datatype Game = Game(order: seq<Country>, index: nat, score: nat, answer: string, phase: Phase)

  /**
   * The session invariant: `score` and `index` move together, `index` never passes
   * the end, a question being asked is the flag at `index`, and a completed run
   * has answered every flag.
   */
  predicate Valid(g: Game) {
    && g.score == g.index
    && g.index <= |g.order|
    && (g.phase == Asking ==> g.index < |g.order| && g.answer == g.order[g.index].name)
    && (g.phase == Completed ==> g.index == |g.order|)
  }

  /** `renderQuestion`: completes the run once `index` reaches the end, else asks flag `index`. */
  function RenderQuestion(g: Game): (r: Game)
    ensures r.order == g.order && r.index == g.index && r.score == g.score
    ensures r.phase == Completed <==> g.index >= |g.order|
    ensures r.phase != Failed
    ensures g.index < |g.order| ==> r.phase == Asking && r.answer == g.order[g.index].name
    ensures g.score == g.index && g.index <= |g.order| ==> Valid(r)
  {
    if g.index >= |g.order| then g.(phase := Completed)
    else g.(answer := g.order[g.index].name, phase := Asking)
  }

  /** `resetGame` with a freshly built order: score and index start at zero together. */
  function Reset(order: seq<Country>): (r: Game)
    ensures Valid(r)
    ensures r.order == order && r.score == 0 && r.index == 0
    ensures r.phase == Completed <==> order == []
    ensures order != [] ==> r.phase == Asking && r.answer == order[0].name
  {
    RenderQuestion(Game(order, 0, 0, "", Asking))
  }

  /** A run of the quiz in the given mode, from the countries list: `buildOrder`, then `resetGame`. */
  function StartGame(mode: Mode, countries: seq<Country>, dailyKey: string, random: Oracle): (r: Game)
    ensures Valid(r) && r.score == 0 && r.index == 0
    ensures r.order == BuildOrder(mode, countries, dailyKey, random)
    ensures multiset(r.order) <= multiset(countries)
  {
    Reset(BuildOrder(mode, countries, dailyKey, random))
  }

  /**
   * `onAnswer`: the right name scores and moves to the next flag (or completes the
   * run); any other name ends the run with the score unchanged.
   */
  function OnAnswer(g: Game, choice: string): (r: Game)
    requires g.phase == Asking
    ensures Valid(g) ==> Valid(r)
    ensures r.order == g.order
    ensures choice == g.answer ==> r.score == g.score + 1 && r.index == g.index + 1 && r.phase != Failed
    ensures choice != g.answer ==> r.phase == Failed && r.score == g.score && r.index == g.index
  {
    if choice == g.answer then RenderQuestion(g.(score := g.score + 1, index := g.index + 1))
    else g.(phase := Failed)
  }

  /** The countdown of the current question running out ends the run as failed. */
  function OnTimeout(g: Game): (r: Game)
    requires g.phase == Asking
    ensures r.phase == Failed && r.order == g.order && r.score == g.score && r.index == g.index
    ensures Valid(g) ==> Valid(r)
  {
    g.(phase := Failed)
  }

  /** What can happen while a question is on screen. */
  datatype Event = Answer(choice: string) | Timeout

  /** The session after a sequence of events; events after the run has ended change nothing. */
  function Run(g: Game, events: seq<Event>): Game
    decreases |events|
  {
    if |events| == 0 || g.phase != Asking then g
    else
      var g' := match events[0]
        case Answer(choice) => OnAnswer(g, choice)
        case Timeout => OnTimeout(g);
      Run(g', events[1..])
  }

  /** The session invariant holds after any sequence of events. */
  lemma {:induction false} RunKeepsValid(g: Game, events: seq<Event>)
    requires Valid(g)
    ensures Valid(Run(g, events))
    ensures Run(g, events).order == g.order
    ensures Run(g, events).index >= g.index
    decreases |events|
  {
    if |events| > 0 && g.phase == Asking {
      var g' := match events[0]
        case Answer(choice) => OnAnswer(g, choice)
        case Timeout => OnTimeout(g);
      RunKeepsValid(g', events[1..]);
    }
  }

  /** Right answers to flags `from`, `from + 1`, ... come first in `events`, `count` of them. */
  predicate AnswersRight(order: seq<Country>, from: nat, events: seq<Event>, count: nat) {
    && count <= |events|
    && from + count <= |order|
    && forall p | 0 <= p < count :: events[p] == Answer(order[from + p].name)
  }

  /**
   * A wrong answer (or a timeout) on the k-th remaining question ends the run as
   * failed with exactly the k right answers before it added to the score.
   */
  lemma {:induction false} FailsAtFirstMiss(g: Game, events: seq<Event>, k: nat)
    requires Valid(g) && g.phase == Asking
    requires AnswersRight(g.order, g.index, events, k)
    requires k < |events| && g.index + k < |g.order|
    requires events[k] != Answer(g.order[g.index + k].name)
    ensures Run(g, events).phase == Failed
    ensures Run(g, events).score == g.score + k
    decreases k
  {
    if k > 0 {
      var g' := OnAnswer(g, g.order[g.index].name);
      assert events[0] == Answer(g.order[g.index].name);
      assert Run(g, events) == Run(g', events[1..]);
      FailsAtFirstMiss(g', events[1..], k - 1);
    } else {
      var g' := match events[0]
        case Answer(choice) => OnAnswer(g, choice)
        case Timeout => OnTimeout(g);
      assert g'.phase == Failed;
    }
  }

  /** Answering every remaining flag right completes the run with one point per flag. */
  lemma {:induction false} CompletesWhenAllRight(g: Game, events: seq<Event>)
    requires Valid(g) && g.phase == Asking
    requires AnswersRight(g.order, g.index, events, |g.order| - g.index)
    ensures Run(g, events).phase == Completed
    ensures Run(g, events).score == |g.order|
    decreases |g.order| - g.index
  {
    var g' := OnAnswer(g, g.order[g.index].name);
    assert events[0] == Answer(g.order[g.index].name);
    assert Run(g, events) == Run(g', events[1..]);
    if g'.phase == Asking {
      CompletesWhenAllRight(g', events[1..]);
    }
  }

  /** From a fresh run: a miss on question k + 1 (counting from one) leaves a score of k. */
  lemma FreshRunFailsWithScore(order: seq<Country>, events: seq<Event>, k: nat)
    requires AnswersRight(order, 0, events, k)
    requires k < |events| && k < |order|
    requires events[k] != Answer(order[k].name)
    ensures Run(Reset(order), events).phase == Failed
    ensures Run(Reset(order), events).score == k
  {
    var g := Reset(order);
    assert g.phase == Asking && g.index == 0 && g.score == 0;
    FailsAtFirstMiss(g, events, k);
  }

  /** From a fresh run: answering all flags right completes it with score `|order|`. */
  lemma FreshRunCompletes(order: seq<Country>, events: seq<Event>)
    requires AnswersRight(order, 0, events, |order|)
    ensures Run(Reset(order), events).phase == Completed
    ensures Run(Reset(order), events).score == |order|
  {
    if order != [] {
      CompletesWhenAllRight(Reset(order), events);
    }
  }

  /**
   * The page as the code drives it: the session and whether the option buttons
   * still accept clicks. Only `onAnswer` disables the buttons; the countdown's
   * `gameOver(false)` stops the timer and leaves them enabled.
   */
  datatype Page = Page(game: Game, live: bool)

  /**
   * `onAnswer` as written: it checks no phase. A click on an enabled button
   * disables them all; the right name then scores and renders the next flag
   * with fresh buttons, any other name fails the run.
   */
  function ClickAsWritten(p: Page, choice: string): (r: Page)
    ensures !p.live ==> r == p
    ensures p.live && choice == p.game.answer ==>
      r.game.score == p.game.score + 1 && r.game.index == p.game.index + 1 && r.game.phase != Failed
    ensures p.live && choice != p.game.answer ==> r.game.phase == Failed && !r.live
    ensures r.live ==> r.game.phase == Asking
  {
    if !p.live then p
    else if choice == p.game.answer then
      var g := RenderQuestion(p.game.(score := p.game.score + 1, index := p.game.index + 1));
      Page(g, g.phase == Asking)
    else Page(p.game.(phase := Failed), false)
  }

  /** The countdown as written: it fails a run being asked and leaves the buttons as they were. */
  function TimeoutAsWritten(p: Page): (r: Page)
    ensures p.game.phase == Asking ==> r.game.phase == Failed && r.live == p.live
    ensures p.game.phase != Asking ==> r == p
    ensures r.game.score == p.game.score && r.game.index == p.game.index
  {
    if p.game.phase == Asking then p.(game := p.game.(phase := Failed)) else p
  }

  /** The page after a sequence of events, every event handled by the code as written. */
  function RunAsWritten(p: Page, events: seq<Event>): Page
    decreases |events|
  {
    if |events| == 0 then p
    else
      var p' := match events[0]
        case Answer(choice) => ClickAsWritten(p, choice)
        case Timeout => TimeoutAsWritten(p);
      RunAsWritten(p', events[1..])
  }

  /**
   * After the countdown has failed a run, a click on the right name still scores
   * and asks the next flag: the code revives a run it has already ended (and
   * auto-saved), where `Run` keeps it failed with the score it had.
   */
  lemma LateClickRevivesTimedOutRun(g: Game)
    requires Valid(g) && g.phase == Asking
    ensures Run(g, [Timeout, Answer(g.answer)]).phase == Failed
    ensures Run(g, [Timeout, Answer(g.answer)]).score == g.score
    ensures RunAsWritten(Page(g, true), [Timeout, Answer(g.answer)]).game.phase != Failed
    ensures RunAsWritten(Page(g, true), [Timeout, Answer(g.answer)]).game.score == g.score + 1
  {
    var events := [Timeout, Answer(g.answer)];
    assert events[1..] == [Answer(g.answer)];
    assert events[1..][1..] == [];
    var failed := g.(phase := Failed);
    assert Run(g, events) == Run(failed, events[1..]) == failed;
    var p := TimeoutAsWritten(Page(g, true));
    assert p == Page(failed, true);
    assert RunAsWritten(Page(g, true), events) == RunAsWritten(p, events[1..]);
    assert RunAsWritten(p, events[1..]) == ClickAsWritten(p, g.answer);
  }

  /**
   * Without the countdown running out, the code as written and `Run` agree: the
   * buttons are enabled exactly while a question is being asked.
   */
  lemma {:induction false} RunAsWrittenAgreesWithoutTimeouts(g: Game, events: seq<Event>)
    requires Valid(g)
    requires forall p | 0 <= p < |events| :: events[p].Answer?
    ensures RunAsWritten(Page(g, g.phase == Asking), events).game == Run(g, events)
    decreases |events|
  {
    if |events| > 0 {
      var choice := events[0].choice;
      var page := ClickAsWritten(Page(g, g.phase == Asking), choice);
      assert RunAsWritten(Page(g, g.phase == Asking), events) == RunAsWritten(page, events[1..]);
      if g.phase == Asking {
        var g' := OnAnswer(g, choice);
        assert page == Page(g', g'.phase == Asking);
        assert Run(g, events) == Run(g', events[1..]);
        RunAsWrittenAgreesWithoutTimeouts(g', events[1..]);
      } else {
        assert page == Page(g, false);
        RunAsWrittenIgnoresEnded(g, events[1..]);
      }
    }
  }

  /** Once the buttons are disabled and no question is being asked, nothing changes the page. */
  lemma {:induction false} RunAsWrittenIgnoresEnded(g: Game, events: seq<Event>)
    requires g.phase != Asking
    ensures RunAsWritten(Page(g, false), events) == Page(g, false)
    decreases |events|
  {
    if |events| > 0 {
      RunAsWrittenIgnoresEnded(g, events[1..]);
    }
  }
}

=== FILE: random.dfy ===
/**
 * Draws in [0, 1) and the index computation `Math.floor(draw * (i + 1))` that both
 * shuffles and the option sampler use.
 */
module Random {

  /** A value `Math.random()` or a mulberry32 generator can return. */
  type Unit = r: real | 0.0 <= r < 1.0

  /** An oracle standing for successive `Math.random()` calls: `random(k)` is the k-th draw. */
  type Oracle = nat -> Unit

  const TwoTo32: int := 0x1_0000_0000

  /** The draws that remain after the first `used` ones have been taken. */
  function Skip(random: Oracle, used: nat): Oracle {
    k => random(used + k)
  }

  /** `t / 4294967296`: a 32-bit draw read as a fraction of 2^32. */
  function FromUint32(t: bv32): (r: real)
    ensures 0.0 <= r < 1.0
  {
    t as int as real / 4294967296.0
  }

  /** `Math.floor(draw * (i + 1))`: always a valid index in [0, i]. */
  function Pick(draw: Unit, i: nat): (j: nat)
    ensures j <= i
  {
    var x := draw * (i + 1) as real;
    assert 0.0 <= x < (i + 1) as real;
    x.Floor
  }

  lemma RealOfProduct(a: int, b: int)
    ensures (a * b) as real == a as real * b as real
  {
  }

  lemma DivideThenMultiply(a: real, b: real, c: real)
    requires c > 0.0
    ensures (a / c) * b == (a * b) / c
  {
  }

  /** The floor of an exact quotient of naturals is the integer quotient. */
  lemma FloorOfQuotient(n: nat, c: int)
    requires c > 0
    ensures (n as real / c as real).Floor == n / c
  {
    var q := n / c;
    var r := n % c;
    assert n == q * c + r;
    RealOfProduct(q, c);
    assert n as real == q as real * c as real + r as real;
    assert n as real / c as real == q as real + r as real / c as real;
  }

  lemma PickOfFraction(u: nat, i: nat)
    requires u < TwoTo32
    ensures Pick(u as real / 4294967296.0, i) == (u * (i + 1)) / TwoTo32
  {
    var k := i + 1;
    var x := (u as real / 4294967296.0) * k as real;
    RealOfProduct(u, k);
    DivideThenMultiply(u as real, k as real, 4294967296.0);
    assert x == (u * k) as real / 4294967296.0;
    FloorOfQuotient(u * k, TwoTo32);
  }

  /**
   * For a 32-bit draw the real-valued index is the integer quotient
   * `(t * (i + 1)) div 2^32`. In a double this holds while `t * (i + 1) < 2^53`,
   * that is for `i + 1 <= 2^21`, where every intermediate value is exact; the
   * arrays the quiz shuffles are far shorter.
   */
  lemma PickOfUint32(t: bv32, i: nat)
    ensures Pick(FromUint32(t), i) == (t as int * (i + 1)) / TwoTo32
  {
    var u := t as int;
    assert u < TwoTo32;
    assert FromUint32(t) == u as real / 4294967296.0;
    PickOfFraction(u, i);
  }
}

=== FILE: ranking.dfy ===
/**
 * The `GET /ranking` query (backend/server.js): keep the records of the requested
 * mode (and day, for daily), order them by score descending then time ascending,
 * and return the first ten.
 */
module Ranking {
  import opened Wrappers
  import opened Collections
  import opened ScoreStore

  /** How many records the ranking returns. */
  const Limit: nat := 10

  /** `String(query.mode || "classic")`, with "" for an absent or empty parameter. */
  function RequestedMode(modeParam: string): string {
    if modeParam == "" then "classic" else modeParam
  }

  /** `r.mode || "classic"`: a record without a mode counts as classic. */
  function RecordMode(r: Record): string {
    if r.mode == "" then "classic" else r.mode
  }

  /** Whether a record belongs in the ranking of `mode` (and `date`, for daily). */
  predicate Matches(r: Record, mode: string, date: string) {
    RecordMode(r) == mode && (mode == "daily" ==> r.date == Some(date))
  }

  /** The two `filter` calls, keeping the records' order. */
  function Filter(records: seq<Record>, mode: string, date: string): (r: seq<Record>)
    ensures forall x :: x in r <==> x in records && Matches(x, mode, date)
    ensures forall x :: multiset(r)[x] == if Matches(x, mode, date) then multiset(records)[x] else 0
    ensures multiset(r) <= multiset(records)
    ensures |r| <= |records|
  {
    if |records| == 0 then []
    else
      var rest := Filter(records[1..], mode, date);
      var r := if Matches(records[0], mode, date) then [records[0]] + rest else rest;
      FilterStep(records, rest, r, mode, date);
      r
  }

  /** One step of the filter: keeping or dropping the head keeps the counts exact. */
  lemma FilterStep(records: seq<Record>, rest: seq<Record>, r: seq<Record>, mode: string, date: string)
    requires |records| > 0
    requires forall x :: multiset(rest)[x] == if Matches(x, mode, date) then multiset(records[1..])[x] else 0
    requires r == if Matches(records[0], mode, date) then [records[0]] + rest else rest
    ensures forall x :: x in r <==> x in records && Matches(x, mode, date)
    ensures forall x :: multiset(r)[x] == if Matches(x, mode, date) then multiset(records)[x] else 0
    ensures multiset(r) <= multiset(records)
  {
    assert records == [records[0]] + records[1..];
    assert multiset(records) == multiset{records[0]} + multiset(records[1..]);
    if Matches(records[0], mode, date) {
      assert multiset(r) == multiset{records[0]} + multiset(rest);
    }
    forall x ensures x in r <==> x in records && Matches(x, mode, date) {
      assert x in r <==> multiset(r)[x] > 0;
      assert x in records <==> multiset(records)[x] > 0;
    }
  }

  /** The records the ranking draws from; none for daily without a date. */
  function Candidates(records: seq<Record>, modeParam: string, dateParam: string): (r: seq<Record>)
    ensures RequestedMode(modeParam) == "daily" && dateParam == "" ==> r == []
    ensures !(RequestedMode(modeParam) == "daily" && dateParam == "") ==>
      forall x :: x in r <==> x in records && Matches(x, RequestedMode(modeParam), dateParam)
    ensures !(RequestedMode(modeParam) == "daily" && dateParam == "") ==>
      forall x :: multiset(r)[x] ==
        if Matches(x, RequestedMode(modeParam), dateParam) then multiset(records)[x] else 0
    ensures multiset(r) <= multiset(records)
  {
    var mode := RequestedMode(modeParam);
    if mode == "daily" && dateParam == "" then [] else Filter(records, mode, dateParam)
  }

  /** Ranked order: no record is better than one placed before it. */
  predicate Sorted(s: seq<Record>) {
    forall i, j | 0 <= i < j < |s| :: !IsBetter(s[j], s[i])
  }

  /** Places `x` before the first record that is not better than it. */
  function Insert(x: Record, s: seq<Record>): (r: seq<Record>)
    requires Sorted(s)
    ensures Sorted(r)
    ensures multiset(r) == multiset(s) + multiset{x}
    ensures |r| == |s| + 1
  {
    if |s| == 0 then [x]
    else if IsBetter(s[0], x) then
      var rest := Insert(x, s[1..]);
      assert s == [s[0]] + s[1..];
      HeadStaysFirst(s[0], x, s[1..], rest);
      [s[0]] + rest
    else
      NothingBetterThanHead(s, x);
      [x] + s
  }

  /**
   * A head better than `x` and not beaten by the tail is not beaten by anything
   * the tail with `x` inserted holds.
   */
  lemma HeadStaysFirst(h: Record, x: Record, tail: seq<Record>, rest: seq<Record>)
    requires IsBetter(h, x)
    requires forall k | 0 <= k < |tail| :: !IsBetter(tail[k], h)
    requires multiset(rest) == multiset(tail) + multiset{x}
    ensures forall k | 0 <= k < |rest| :: !IsBetter(rest[k], h)
  {
    forall k | 0 <= k < |rest|
      ensures !IsBetter(rest[k], h)
    {
      assert rest[k] in multiset(rest);
      if rest[k] != x {
        assert rest[k] in multiset(tail);
        var m :| 0 <= m < |tail| && tail[m] == rest[k];
      }
    }
  }

  /** If the head of a ranked list is not better than `x`, no record of it is. */
  lemma NothingBetterThanHead(s: seq<Record>, x: Record)
    requires Sorted(s) && |s| > 0 && !IsBetter(s[0], x)
    ensures forall k | 0 <= k < |s| :: !IsBetter(s[k], x)
  {
    forall k | 0 <= k < |s|
      ensures !IsBetter(s[k], x)
    {
      if k > 0 {
        NotBetterIsTransitive(s[k], s[0], x);
      }
    }
  }

  /**
   * `list.sort((a, b) => b.score - a.score || a.time - b.time)`: a stable sort,
   * here insertion of each record into the sorted rest.
   */
  function SortByRank(s: seq<Record>): (r: seq<Record>)
    ensures Sorted(r)
    ensures multiset(r) == multiset(s)
    ensures |r| == |s|
  {
    if |s| == 0 then []
    else
      assert s == [s[0]] + s[1..];
      Insert(s[0], SortByRank(s[1..]))
  }

  /** Cutting a ranked list leaves nothing in the tail better than the head. */
  lemma PrefixOfSortedIsTop(s: seq<Record>, m: nat)
    requires Sorted(s) && m <= |s|
    ensures multiset(s) - multiset(s[..m]) == multiset(s[m..])
    ensures forall x, y | x in s[..m] && y in multiset(s[m..]) :: !IsBetter(y, x)
  {
    assert s == s[..m] + s[m..];
    forall x, y | x in s[..m] && y in multiset(s[m..])
      ensures !IsBetter(y, x)
    {
      var a :| 0 <= a < m && s[..m][a] == x;
      var b :| 0 <= b < |s[m..]| && s[m..][b] == y;
      assert s[a] == x && s[m + b] == y;
    }
  }

  /**
   * The response of `GET /ranking?mode=&date=`: at most ten records of the
   * requested mode (and day), in ranked order, and no record left out is better
   * than one returned.
   */
  function Ranking(records: seq<Record>, modeParam: string, dateParam: string): (r: seq<Record>)
    ensures RequestedMode(modeParam) == "daily" && dateParam == "" ==> r == []
    ensures forall x | x in r :: x in records && Matches(x, RequestedMode(modeParam), dateParam)
    ensures |r| == Min(Limit, |Candidates(records, modeParam, dateParam)|)
    ensures Sorted(r)
    ensures multiset(r) <= multiset(Candidates(records, modeParam, dateParam))
    ensures forall x, y | x in r && y in multiset(Candidates(records, modeParam, dateParam)) - multiset(r) ::
      !IsBetter(y, x)
  {
    Top(Candidates(records, modeParam, dateParam))
  }

  /** `all.sort(...).slice(0, 10)`: the ten best of `all`, in ranked order. */
  function Top(all: seq<Record>): (r: seq<Record>)
    ensures |r| == Min(Limit, |all|)
    ensures Sorted(r)
    ensures multiset(r) <= multiset(all)
    ensures forall x | x in r :: x in all
    ensures forall x, y | x in r && y in multiset(all) - multiset(r) :: !IsBetter(y, x)
  {
    var sorted := SortByRank(all);
    var m := Min(Limit, |sorted|);
    PrefixOfSortedIsTop(sorted, m);
    PrefixMultiset(sorted, m);
    forall x | x in sorted
      ensures x in all
    {
      assert x in multiset(sorted);
    }
    sorted[..m]
  }

  /** When ten or fewer records qualify, every one of them is listed. */
  lemma SmallRankingListsAll(records: seq<Record>, modeParam: string, dateParam: string)
    requires |Candidates(records, modeParam, dateParam)| <= Limit
    ensures multiset(Ranking(records, modeParam, dateParam)) == multiset(Candidates(records, modeParam, dateParam))
  {
    var all := Candidates(records, modeParam, dateParam);
    assert SortByRank(all)[..|all|] == SortByRank(all);
  }
}

=== FILE: scores.dfy ===
/**
 * The best-score store behind `POST /score` (backend/server.js): validation of
 * the submitted body, derivation of the record key, and upsert-if-better over
 * the list of records. The store is the in-memory `records` array; reading and
 * writing the JSON file around it is not modelled.
 */
module ScoreStore {
  import opened Wrappers
  import opened Text

  /** A JavaScript number after `Number(...)`: finite, or one of NaN and the infinities. */
  datatype Num = Finite(value: real) | NotFinite

  /**
   * The request body as the handler sees it after its coercions:
   * `name` is `String(body.name || "")` before trimming ("" when absent);
   * `score` and `time` are `Number(...)` of the field, `None` when it is null or
   * absent (the handler then uses 0 and 999999); `mode` is the string given, ""
   * when absent or empty (the handler then uses "classic"); `date` is `None` when
   * null or absent, else `String(body.date)`.
   */
  datatype Submission = Submission(
    name: string, score: Option<Num>, time: Option<Num>, mode: string, date: Option<string>)

  /**
   * A stored best score. `mode` is "" for a record without one; `date` is the day
   * of a daily record and `None` otherwise; `createdAt` is the clock reading of
   * the write.
   */
  datatype Record = Record(
    name: string, score: real, time: real, mode: string, date: Option<string>,
    key: string, createdAt: int)

  /** Why a submission is answered with HTTP 400, in the order the handler checks. */
  datatype ValidationError = NameRequired | InvalidScore | InvalidTime | DailyRequiresDate

  const DefaultScore: real := 0.0
  const DefaultTime: real := 999999.0

  /** `Number(field ?? default)`. */
  function NumberOr(n: Option<Num>, default: real): Num {
    match n
    case None => Finite(default)
    case Some(v) => v
  }

  /** `Number.isFinite(x) && !(x < 0)`. */
  predicate IsValidAmount(n: Num) {
    n.Finite? && n.value >= 0.0
  }

  /** `String(body.mode || "classic")`. */
  function ModeOf(s: Submission): string {
    if s.mode == "" then "classic" else s.mode
  }

  /** `!date` is false: a date is present and non-empty. */
  predicate HasDate(date: Option<string>) {
    date.Some? && date.value != ""
  }

  /** The record key: the lower-cased name, then `|daily|` and the day, or `|classic`. */
  function Key(name: string, day: Option<string>): string {
    match day
    case Some(d) => ToLower(name) + "|daily|" + d
    case None => ToLower(name) + "|classic"
  }

  /** What every record the handler writes satisfies. */
  predicate WellFormed(r: Record) {
    && r.name != [] && Trim(r.name) == r.name
    && r.score >= 0.0 && r.time >= 0.0
    && (r.date.Some? <==> r.mode == "daily")
    && (r.date.Some? ==> r.date.value != "")
    && r.key == Key(r.name, r.date)
  }

  lemma TrimIsIdempotent(s: string)
    ensures Trim(Trim(s)) == Trim(s)
  {
    var t := Trim(s);
    assert t == [] || (!IsSpace(t[0]) && !IsSpace(t[|t| - 1]));
  }

  /**
   * The checks of the handler, in its order, and the candidate record it builds
   * when they all pass. `now` stands for `Date.now()`.
   */
  function Validate(s: Submission, now: int): (r: Result<Record, ValidationError>)
    ensures r == Failure(NameRequired) <==> Trim(s.name) == []
    ensures r == Failure(InvalidScore) <==>
      Trim(s.name) != [] && !IsValidAmount(NumberOr(s.score, DefaultScore))
    ensures r == Failure(InvalidTime) <==>
      && Trim(s.name) != [] && IsValidAmount(NumberOr(s.score, DefaultScore))
      && !IsValidAmount(NumberOr(s.time, DefaultTime))
    ensures r == Failure(DailyRequiresDate) <==>
      && Trim(s.name) != [] && IsValidAmount(NumberOr(s.score, DefaultScore))
      && IsValidAmount(NumberOr(s.time, DefaultTime))
      && ModeOf(s) == "daily" && !HasDate(s.date)
    ensures r.Success? ==>
      && WellFormed(r.value)
      && r.value.name == Trim(s.name)
      && r.value.score == NumberOr(s.score, DefaultScore).value
      && r.value.time == NumberOr(s.time, DefaultTime).value
      && r.value.mode == ModeOf(s)
      && (r.value.mode == "daily" ==> r.value.date == s.date)
      && r.value.createdAt == now
  {
    var name := Trim(s.name);
    var score := NumberOr(s.score, DefaultScore);
    var time := NumberOr(s.time, DefaultTime);
    var mode := ModeOf(s);
    if name == [] then Failure(NameRequired)
    else if !IsValidAmount(score) then Failure(InvalidScore)
    else if !IsValidAmount(time) then Failure(InvalidTime)
    else if mode == "daily" && !HasDate(s.date) then Failure(DailyRequiresDate)
    else
      var day := if mode == "daily" then s.date else None;
      TrimIsIdempotent(s.name);
      Success(Record(name, score.value, time.value, mode, day, Key(name, day), now))
  }

  /** `isBetter(newRec, oldRec)`: a higher score, or the same score in less time. */
  predicate IsBetter(a: Record, b: Record) {
    a.score > b.score || (a.score == b.score && a.time < b.time)
  }

  /** `isBetter` is a strict order; equal score and equal time is never better. */
  lemma IsBetterIsStrictOrder()
    ensures forall a: Record :: !IsBetter(a, a)
    ensures forall a: Record, b: Record :: IsBetter(a, b) ==> !IsBetter(b, a)
    ensures forall a: Record, b: Record, c: Record :: IsBetter(a, b) && IsBetter(b, c) ==> IsBetter(a, c)
    ensures forall a: Record, b: Record ::
      a.score == b.score && a.time == b.time ==> !IsBetter(a, b) && !IsBetter(b, a)
  {
  }

  /**
   * Against a stored 5 points in 12.3 s: a higher score wins whatever its time, a
   * lower score loses whatever its time, and an equal score wins only when faster.
   */
  lemma IsBetterVectors(stored: Record)
    requires stored.score == 5.0 && stored.time == 12.3
    ensures IsBetter(stored.(score := 6.0, time := 99.0), stored)
    ensures !IsBetter(stored.(score := 4.0, time := 1.0), stored)
    ensures IsBetter(stored.(time := 9.0), stored)
    ensures !IsBetter(stored.(time := 12.3), stored)
    ensures !IsBetter(stored.(time := 20.0), stored)
  {
  }

  /** Being no better is transitive too, so `isBetter` orders records by (score, time) alone. */
  lemma NotBetterIsTransitive(a: Record, b: Record, c: Record)
    requires !IsBetter(a, b) && !IsBetter(b, c)
    ensures !IsBetter(a, c)
  {
  }

  /** `records.findIndex(r => r.key === key)`, `None` for -1. */
  function FindKey(records: seq<Record>, key: string): (r: Option<nat>)
    ensures r.Some? ==>
      && r.value < |records|
      && records[r.value].key == key
      && (forall k | 0 <= k < r.value :: records[k].key != key)
    ensures r.None? ==> forall k | 0 <= k < |records| :: records[k].key != key
  {
    if |records| == 0 then None
    else if records[0].key == key then Some(0)
    else
      match FindKey(records[1..], key)
      case None => None
      case Some(i) => Some(i + 1)
  }

  /** At most one record per key. */
  predicate UniqueKeys(records: seq<Record>) {
    forall i, j | 0 <= i < j < |records| :: records[i].key != records[j].key
  }

  /**
   * The upsert of the handler: append the candidate when its key is new, replace
   * the record with that key when the candidate is better, otherwise keep the
   * records. The flag is the `updated` of the response.
   */
  function Upsert(records: seq<Record>, candidate: Record): (r: (seq<Record>, bool))
    ensures UniqueKeys(records) ==> UniqueKeys(r.0)
    ensures (forall k | 0 <= k < |records| :: records[k].key != candidate.key) ==>
      r.0 == records + [candidate] && r.1
    ensures forall k | 0 <= k < |records| && records[k].key == candidate.key
                       && (forall m | 0 <= m < k :: records[m].key != candidate.key) ::
      && (IsBetter(candidate, records[k]) ==> r.0 == records[k := candidate] && r.1)
      && (!IsBetter(candidate, records[k]) ==> r.0 == records && !r.1)
    ensures |records| <= |r.0| <= |records| + 1
    ensures forall k | 0 <= k < |r.0| :: r.0[k] == candidate || (k < |records| && r.0[k] == records[k])
    ensures forall k | 0 <= k < |records| ::
      || r.0[k] == records[k]
      || (r.0[k] == candidate && records[k].key == candidate.key && IsBetter(candidate, records[k]))
    ensures r.1 <==> candidate in r.0 && r.0 != records
    ensures exists k | 0 <= k < |r.0| :: r.0[k].key == candidate.key
  {
    match FindKey(records, candidate.key)
    case None =>
      (records + [candidate], true)
    case Some(i) =>
      if IsBetter(candidate, records[i]) then
        assert records[i] != candidate;
        assert records[i := candidate][i] == candidate;
        (records[i := candidate], true)
      else
        assert records[i].key == candidate.key;
        (records, false)
  }

  /** The response of `POST /score`: HTTP 400 with the reason, or `{updated}`. */
  datatype Response = BadRequest(error: ValidationError) | Saved(updated: bool)

  /** The whole handler on the store: validate, then upsert the candidate. */
  function Submit(store: seq<Record>, s: Submission, now: int): (r: (Response, seq<Record>))
    ensures r.0.BadRequest? <==> Validate(s, now).Failure?
    ensures r.0.BadRequest? ==> r.1 == store && r.0.error == Validate(s, now).error
    ensures r.0.Saved? ==> (r.1, r.0.updated) == Upsert(store, Validate(s, now).value)
    ensures UniqueKeys(store) ==> UniqueKeys(r.1)
    ensures (forall k | 0 <= k < |store| :: WellFormed(store[k])) ==>
      forall k | 0 <= k < |r.1| :: WellFormed(r.1[k])
  {
    match Validate(s, now)
    case Failure(e) => (BadRequest(e), store)
    case Success(candidate) =>
      var (records, updated) := Upsert(store, candidate);
      UpsertKeepsWellFormed(store, candidate);
      (Saved(updated), records)
  }

  /** Upserting a well-formed record into a well-formed store leaves it well-formed. */
  lemma UpsertKeepsWellFormed(store: seq<Record>, candidate: Record)
    requires WellFormed(candidate)
    ensures (forall k | 0 <= k < |store| :: WellFormed(store[k])) ==>
      forall k | 0 <= k < |Upsert(store, candidate).0| :: WellFormed(Upsert(store, candidate).0[k])
  {
  }

  /**
   * Two submissions under one new key leave exactly one record for it: the
   * better of the two, the first one winning ties.
   */
  lemma SubmitTwiceKeepsBetter(store: seq<Record>, a: Record, b: Record)
    requires a.key == b.key
    requires forall k | 0 <= k < |store| :: store[k].key != a.key
    ensures Upsert(Upsert(store, a).0, b).0 == store + [if IsBetter(b, a) then b else a]
    ensures Upsert(Upsert(store, a).0, b).1 <==> IsBetter(b, a)
  {
    var first := Upsert(store, a).0;
    assert first == store + [a];
    assert first[|store|] == a;
    assert forall m | 0 <= m < |store| :: first[m].key != b.key;
  }

  /**
   * One player's classic submissions to an empty store: 5 points in 12.3 s is
   * saved, the same 5 points in 9.0 s replaces it, and a later 3 points in 5.0 s
   * is turned down and leaves the stored 9.0 s run in place.
   */
  lemma FasterRunReplacesLowerScoreDoesNot(now1: int, now2: int, now3: int)
    ensures
      var first := Submit([], Submission("Ann", Some(Finite(5.0)), Some(Finite(12.3)), "", None), now1);
      var second := Submit(first.1, Submission("Ann", Some(Finite(5.0)), Some(Finite(9.0)), "", None), now2);
      var third := Submit(second.1, Submission("Ann", Some(Finite(3.0)), Some(Finite(5.0)), "", None), now3);
      && first.0 == Saved(true) && second.0 == Saved(true) && third.0 == Saved(false)
      && |second.1| == 1 && second.1[0].score == 5.0 && second.1[0].time == 9.0
      && third.1 == second.1
  {
    var s1 := Submission("Ann", Some(Finite(5.0)), Some(Finite(12.3)), "", None);
    var s2 := Submission("Ann", Some(Finite(5.0)), Some(Finite(9.0)), "", None);
    var s3 := Submission("Ann", Some(Finite(3.0)), Some(Finite(5.0)), "", None);
    assert Trim("Ann") == "Ann" by {
      assert TrimStart("Ann") == "Ann";
    }
    var r1 := AcceptedClassic(s1, now1);
    var r2 := AcceptedClassic(s2, now2);
    var r3 := AcceptedClassic(s3, now3);
    UpsertIntoEmpty(r1);
    assert Submit([], s1, now1) == (Saved(true), [r1]);
    UpsertOverOne(r1, r2);
    assert Submit([r1], s2, now2) == (Saved(true), [r2]);
    UpsertOverOne(r2, r3);
    assert Submit([r2], s3, now3) == (Saved(false), [r2]);
  }

  /** The first record of an empty store is saved. */
  lemma UpsertIntoEmpty(c: Record)
    ensures Upsert([], c) == ([c], true)
  {
    assert [] + [c] == [c];
  }

  /** A store holding one record under the candidate's key keeps the better of the two. */
  lemma UpsertOverOne(a: Record, c: Record)
    requires a.key == c.key
    ensures Upsert([a], c) == if IsBetter(c, a) then ([c], true) else ([a], false)
  {
    assert FindKey([a], c.key) == Some(0);
    assert [a][0 := c] == [c];
  }

  /** A classic submission with a non-blank name and valid numbers is accepted as given. */
  lemma AcceptedClassic(s: Submission, now: int) returns (r: Record)
    requires Trim(s.name) == s.name != [] && s.mode == "" && s.date == None
    requires s.score.Some? && s.score.value.Finite? && s.score.value.value >= 0.0
    requires s.time.Some? && s.time.value.Finite? && s.time.value.value >= 0.0
    ensures Validate(s, now) == Success(r)
    ensures r.name == s.name && r.score == s.score.value.value && r.time == s.time.value.value
    ensures r.key == Key(s.name, None)
  {
    r := Validate(s, now).value;
  }

  /** Names that differ only in letter case share one key. */
  lemma KeyIgnoresCase(n1: string, n2: string, day: Option<string>)
    requires ToLower(n1) == ToLower(n2)
    ensures Key(n1, day) == Key(n2, day)
  {
  }

  predicate NoBar(s: string) {
    forall k | 0 <= k < |s| :: s[k] != '|'
  }

  /** In `p + t` with no `|` in `p` and `t` starting with one, the first `|` is at `|p|`. */
  lemma FirstBarAt(p: string, t: string)
    requires NoBar(p) && |t| > 0 && t[0] == '|'
    ensures forall k | 0 <= k < |p| :: (p + t)[k] != '|'
    ensures (p + t)[|p|] == '|'
  {
  }

  lemma SplitAtFirstBar(p1: string, t1: string, p2: string, t2: string)
    requires NoBar(p1) && NoBar(p2)
    requires |t1| > 0 && t1[0] == '|' && |t2| > 0 && t2[0] == '|'
    requires p1 + t1 == p2 + t2
    ensures p1 == p2 && t1 == t2
  {
    FirstBarAt(p1, t1);
    FirstBarAt(p2, t2);
    if |p1| != |p2| {
      assert false;
    } else {
      assert p1 == (p1 + t1)[..|p1|];
      assert p2 == (p2 + t2)[..|p2|];
      assert t1 == (p1 + t1)[|p1|..];
      assert t2 == (p2 + t2)[|p2|..];
    }
  }

  /**
   * For names without `|` the key identifies the lower-cased name, the mode
   * (daily or not) and the day: different players or days never share a record.
   */
  lemma KeyIsInjective(n1: string, d1: Option<string>, n2: string, d2: Option<string>)
    requires NoBar(n1) && NoBar(n2)
    requires Key(n1, d1) == Key(n2, d2)
    ensures ToLower(n1) == ToLower(n2) && d1 == d2
  {
    var l1, l2 := ToLower(n1), ToLower(n2);
    var t1 := if d1.Some? then "|daily|" + d1.value else "|classic";
    var t2 := if d2.Some? then "|daily|" + d2.value else "|classic";
    assert Key(n1, d1) == l1 + t1;
    assert Key(n2, d2) == l2 + t2;
    SplitAtFirstBar(l1, t1, l2, t2);
    assert t1[1] == (if d1.Some? then 'd' else 'c');
    assert t2[1] == (if d2.Some? then 'd' else 'c');
    if d1.Some? {
      assert d1.value == t1[7..] && d2.value == t2[7..];
    }
  }

  /** With a `|` in the name a classic player and a daily player can share a key. */
  lemma KeysCollideThroughBar()
    ensures Key("a|daily|x", None) == Key("a", Some("x|classic"))
  {
  }

  /** The keys of player "Ann": the lower-cased name, then `|classic` or `|daily|` and the day. */
  lemma KeyVectors()
    ensures Key("Ann", None) == "ann|classic"
    ensures Key("Ann", Some("2024-01-01")) == "ann|daily|2024-01-01"
  {
  }

  /**
   * A mode other than "daily" is keyed as classic whatever it is called: such a
   * submission competes with the same player's classic record, yet keeps its own mode.
   */
  lemma OtherModesShareClassicKey(s: Submission, c: Submission, now: int)
    requires Validate(s, now).Success? && Validate(c, now).Success?
    requires s.name == c.name && ModeOf(s) != "daily" && ModeOf(c) == "classic"
    ensures Validate(s, now).value.key == Validate(c, now).value.key
    ensures Validate(s, now).value.mode == ModeOf(s)
  {
  }
}

=== FILE: shuffle.dfy ===
/**
 * `seededShuffle` and `shuffle` (frontend/script.js): Durstenfeld's Fisher–Yates
 * loop over a copy of the array, swapping position `i` with
 * `j = Math.floor(draw * (i + 1))` for `i` from `length - 1` down to 1. The two
 * differ only in where the draws come from.
 */
module Shuffle {
  import opened Random
  import opened Collections
  import Mulberry
  import Fnv

  /** How many times `for (let i = n - 1; i > 0; i--)` runs. */
  function Steps(n: nat): nat {
    if n == 0 then 0 else n - 1
  }

  /** `[a[i], a[j]] = [a[j], a[i]]` on a copy. */
  function Swap<T>(a: seq<T>, i: nat, j: nat): (r: seq<T>)
    requires i < |a| && j < |a|
    ensures |r| == |a| && r[i] == a[j] && r[j] == a[i]
    ensures forall k | 0 <= k < |a| && k != i && k != j :: r[k] == a[k]
  {
    a[i := a[j]][j := a[i]]
  }

  /**
   * Iterations `i, i - 1, ..., 1` of the loop: iteration `i` consumes the next draw
   * and swaps position `i` with a position in `[0, i]`.
   */
  function ShuffleFrom<T>(a: seq<T>, i: nat, draws: seq<Unit>): (r: seq<T>)
    requires i == 0 || i < |a|
    requires |draws| == i
    ensures |r| == |a|
    decreases i
  {
    if i == 0 then a
    else ShuffleFrom(Swap(a, i, Pick(draws[0], i)), i - 1, draws[1..])
  }

  /** A swap only exchanges two elements. */
  lemma SwapIsPermutation<T>(a: seq<T>, i: nat, j: nat)
    requires i < |a| && j < |a|
    ensures multiset(Swap(a, i, j)) == multiset(a)
  {
  }

  /** Whatever the draws, the loop only rearranges the elements. */
  lemma {:induction false} ShuffleFromIsPermutation<T>(a: seq<T>, i: nat, draws: seq<Unit>)
    requires i == 0 || i < |a|
    requires |draws| == i
    ensures multiset(ShuffleFrom(a, i, draws)) == multiset(a)
    decreases i
  {
    if i > 0 {
      var j := Pick(draws[0], i);
      SwapIsPermutation(a, i, j);
      ShuffleFromIsPermutation(Swap(a, i, j), i - 1, draws[1..]);
    }
  }

  /** The whole loop over `a`, fed exactly the draws it makes. */
  function FisherYates<T>(a: seq<T>, draws: seq<Unit>): (r: seq<T>)
    requires |draws| == Steps(|a|)
  {
    ShuffleFrom(a, Steps(|a|), draws)
  }

  /** The draws `seededShuffle` makes: the first `Steps(n)` calls of `mulberry32(seedFromString(seedStr))`. */
  function SeededDraws(seedStr: string, n: nat): (r: seq<Unit>)
    ensures |r| == Steps(n)
  {
    Mulberry.Draws(Mulberry.Generator(Fnv.SeedOf(seedStr)), Steps(n))
  }

  /** `seededShuffle(arr, seedStr)`: a permutation of `arr` fixed by the seed string alone. */
  function SeededShuffle<T>(arr: seq<T>, seedStr: string): (r: seq<T>)
    ensures |r| == |arr| && multiset(r) == multiset(arr)
  {
    ShuffleFromIsPermutation(arr, Steps(|arr|), SeededDraws(seedStr, |arr|));
    FisherYates(arr, SeededDraws(seedStr, |arr|))
  }

  /** The draws `shuffle` makes when `random(k)` is its k-th `Math.random()` call. */
  function OracleDraws(random: Oracle, n: nat): (r: seq<Unit>)
    ensures |r| == n
    ensures forall k | 0 <= k < n :: r[k] == random(k)
  {
    seq(n, k requires 0 <= k < n => random(k))
  }

  /** `shuffle(arr)`: a permutation of `arr` chosen by the `Math.random()` draws. */
  function RandomShuffle<T>(arr: seq<T>, random: Oracle): (r: seq<T>)
    ensures |r| == |arr| && multiset(r) == multiset(arr)
  {
    ShuffleFromIsPermutation(arr, Steps(|arr|), OracleDraws(random, Steps(|arr|)));
    FisherYates(arr, OracleDraws(random, Steps(|arr|)))
  }

  /**
   * One iteration of `shuffle`'s loop after `k` earlier calls of `Math.random()`:
   * the next call picks the swap partner of position `i`.
   */
  lemma OracleIteration<T>(a: seq<T>, i: nat, random: Oracle, k: nat)
    requires 0 < i < |a|
    ensures ShuffleFrom(a, i, OracleDraws(Skip(random, k), i))
         == ShuffleFrom(Swap(a, i, Pick(random(k), i)), i - 1, OracleDraws(Skip(random, k + 1), i - 1))
  {
    var d := OracleDraws(Skip(random, k), i);
    assert d[0] == random(k);
    assert d[1..] == OracleDraws(Skip(random, k + 1), i - 1);
  }

  /**
   * `shuffle(arr)` as the source runs it: a loop from the last position down to 1
   * over a copy of `arr`, where iteration number `k` (counting from 0) makes the
   * `k`-th `Math.random()` call. It computes exactly the functional model.
   */
  method RandomShuffleLoop<T>(arr: seq<T>, random: Oracle) returns (a: seq<T>)
    ensures a == RandomShuffle(arr, random)
    ensures multiset(a) == multiset(arr)
  {
    a := arr;
    var i: nat := Steps(|arr|);
    var k: nat := 0;
    assert OracleDraws(Skip(random, 0), i) == OracleDraws(random, i);
    while i > 0
      invariant i == 0 || i < |a|
      invariant |a| == |arr|
      invariant ShuffleFrom(a, i, OracleDraws(Skip(random, k), i)) == RandomShuffle(arr, random)
      decreases i
    {
      OracleIteration(a, i, random, k);
      var j := Pick(random(k), i);
      a := Swap(a, i, j);
      i := i - 1;
      k := k + 1;
    }
  }

  /**
   * `seededShuffle` is `shuffle` with `Math.random` replaced by the seeded
   * generator: the k-th draw is the seed hash advanced k + 1 times, scrambled.
   */
  lemma SeededIsRandomShuffleWithGenerator<T>(arr: seq<T>, seedStr: string)
    ensures SeededShuffle(arr, seedStr)
         == RandomShuffle(arr, k =>
              Mulberry.Output(Mulberry.CounterAfter(Fnv.SeedOf(seedStr), k + 1)))
  {
    var random: Oracle := k => Mulberry.Output(Mulberry.CounterAfter(Fnv.SeedOf(seedStr), k + 1));
    var g := Mulberry.Generator(Fnv.SeedOf(seedStr));
    var n := Steps(|arr|);
    forall k | 0 <= k < n
      ensures SeededDraws(seedStr, |arr|)[k] == OracleDraws(random, n)[k]
    {
      Mulberry.DrawIsScrambledCounter(g, n, k);
    }
    assert SeededDraws(seedStr, |arr|) == OracleDraws(random, n);
  }

  /**
   * One `rng()` call followed by `Math.floor(rng() * (i + 1))`, computed in
   * integers as `(t * (i + 1)) div 2^32` from the 32-bit draw `t`.
   */
  method DrawIndex(g: Mulberry.Generator, i: nat) returns (next: Mulberry.Generator, j: nat)
    ensures next == Mulberry.Next(g)
    ensures j == Pick(Mulberry.Output(next.counter), i) && j <= i
  {
    next := Mulberry.Next(g);
    var t := Mulberry.Mix(next.counter);
    PickOfUint32(t, i);
    assert Mulberry.Output(next.counter) == FromUint32(t);
    j := (t as int * (i + 1)) / TwoTo32;
  }

  /** One iteration of the loop: call the generator once, then swap with the drawn index. */
  lemma CounterIteration<T>(a: seq<T>, i: nat, out: bv32 -> Unit, g: Mulberry.Generator)
    requires 0 < i < |a|
    ensures ShuffleFrom(a, i, Mulberry.Outputs(out, g, i))
         == ShuffleFrom(Swap(a, i, Pick(out(Mulberry.Next(g).counter), i)), i - 1,
                        Mulberry.Outputs(out, Mulberry.Next(g), i - 1))
  {
  }

  /**
   * The loop of `seededShuffle`, from the last position down to 1 over a copy of
   * `arr`, with `rng` a counter-based generator started at `g` whose calls return
   * `out` of the advanced counter.
   */
  method CounterShuffleLoop<T>(arr: seq<T>, g: Mulberry.Generator, out: bv32 -> Unit) returns (a: seq<T>)
    ensures a == FisherYates(arr, Mulberry.Outputs(out, g, Steps(|arr|)))
  {
    a := arr;
    var h := g;
    var i: nat := Steps(|arr|);
    while i > 0
      invariant i == 0 || i < |a|
      invariant |a| == |arr|
      invariant ShuffleFrom(a, i, Mulberry.Outputs(out, h, i))
             == FisherYates(arr, Mulberry.Outputs(out, g, Steps(|arr|)))
      decreases i
    {
      CounterIteration(a, i, out, h);
      h := Mulberry.Next(h);
      var j := Pick(out(h.counter), i);
      a := Swap(a, i, j);
      i := i - 1;
    }
  }

  /**
   * `seededShuffle` as the source runs it: hash the seed string, then run the
   * loop with `mulberry32` seeded by the hash. It computes exactly the
   * functional model.
   */
  method SeededShuffleLoop<T>(arr: seq<T>, seedStr: string) returns (a: seq<T>)
    ensures a == SeededShuffle(arr, seedStr)
    ensures multiset(a) == multiset(arr)
  {
    var seed := Fnv.SeedFromString(seedStr);
    a := CounterShuffleLoop(arr, Mulberry.Generator(seed), Mulberry.Output);
  }
}

=== FILE: text.dfy ===
/**
 * The pieces of JavaScript string behaviour the core relies on: the whitespace
 * class shared by `\s` and `String.prototype.trim`, `trim`, the `/\s+/g -> " "`
 * replacement, lower-casing (ASCII letters only) and the UTF-16 code units that
 * `charCodeAt` exposes.
 */
module Text {

  /** Characters matched by `\s` and removed by `trim`: WhiteSpace and LineTerminator. */
  predicate IsSpace(c: char) {
    var n := c as int;
    || (0x09 <= n <= 0x0D) || n == 0x20 || n == 0xA0 || n == 0x1680
    || (0x2000 <= n <= 0x200A) || n == 0x2028 || n == 0x2029 || n == 0x202F
    || n == 0x205F || n == 0x3000 || n == 0xFEFF
  }

  /** Removes leading whitespace: the result is the longest suffix that does not start with a space. */
  function TrimStart(s: string): (r: string)
    ensures |r| <= |s| && r == s[|s| - |r|..]
    ensures forall k | 0 <= k < |s| - |r| :: IsSpace(s[k])
    ensures r == [] || !IsSpace(r[0])
  {
    if |s| > 0 && IsSpace(s[0]) then TrimStart(s[1..]) else s
  }

  /** Removes trailing whitespace: the result is the longest prefix that does not end with a space. */
  function TrimEnd(s: string): (r: string)
    ensures |r| <= |s| && r == s[..|r|]
    ensures forall k | |r| <= k < |s| :: IsSpace(s[k])
    ensures r == [] || !IsSpace(r[|r| - 1])
  {
    if |s| > 0 && IsSpace(s[|s| - 1]) then TrimEnd(s[..|s| - 1]) else s
  }

  /** `String.prototype.trim`. */
  function Trim(s: string): string {
    TrimEnd(TrimStart(s))
  }

  /** The non-whitespace characters of `s`, in order. */
  function Visible(s: string): string {
    if |s| == 0 then []
    else if IsSpace(s[0]) then Visible(s[1..])
    else [s[0]] + Visible(s[1..])
  }

  lemma {:induction false} VisibleOfSpaces(s: string)
    requires forall k | 0 <= k < |s| :: IsSpace(s[k])
    ensures Visible(s) == []
  {
    if |s| > 0 {
      VisibleOfSpaces(s[1..]);
    }
  }

  lemma {:induction false} VisibleAppend(a: string, b: string)
    ensures Visible(a + b) == Visible(a) + Visible(b)
  {
    if |a| == 0 {
      assert a + b == b;
    } else {
      assert (a + b)[1..] == a[1..] + b;
      VisibleAppend(a[1..], b);
    }
  }

  /** A non-empty `r` comes from a non-empty `s` and ends in whitespace exactly when `s` does. */
  predicate EndsAlike(s: string, r: string) {
    |r| > 0 ==> |s| > 0 && (IsSpace(r[|r| - 1]) <==> IsSpace(s[|s| - 1]))
  }

  /** Only plain spaces, never two in a row, as `/\s+/g -> " "` leaves them. */
  predicate SingleSpaced(s: string) {
    && (forall k | 0 <= k < |s| :: IsSpace(s[k]) ==> s[k] == ' ')
    && (forall k | 0 <= k < |s| - 1 :: !(s[k] == ' ' && s[k + 1] == ' '))
  }

  /** Everything `CollapseSpaces` promises about its result `r` for the input `s`. */
  predicate Collapsed(s: string, r: string) {
    && SingleSpaced(r)
    && Visible(r) == Visible(s)
    && |r| <= |s|
    && (r == [] <==> s == [])
    && (|r| > 0 ==> (IsSpace(r[0]) <==> IsSpace(s[0])))
    && EndsAlike(s, r)
  }

  /** `s.replace(/\s+/g, " ")`: every maximal run of whitespace becomes one space. */
  function CollapseSpaces(s: string): (r: string)
    ensures SingleSpaced(r)
    ensures Visible(r) == Visible(s)
    ensures |r| <= |s|
    ensures r == [] <==> s == []
    ensures |r| > 0 ==> (IsSpace(r[0]) <==> IsSpace(s[0]))
    ensures EndsAlike(s, r)
    decreases |s|
  {
    if |s| == 0 then []
    else if IsSpace(s[0]) then
      var rest := TrimStart(s);
      assert |rest| < |s|;
      var t := CollapseSpaces(rest);
      assert Collapsed(rest, t);
      CollapseSpaceRun(s, rest, t);
      [' '] + t
    else
      var t := CollapseSpaces(s[1..]);
      assert Collapsed(s[1..], t);
      CollapseVisible(s, t);
      [s[0]] + t
  }

  /** A leading run of whitespace becomes one space in front of `t`, the rest's collapse. */
  lemma CollapseSpaceRun(s: string, rest: string, t: string)
    requires |s| > 0 && IsSpace(s[0]) && rest == TrimStart(s)
    requires Collapsed(rest, t)
    ensures Collapsed(s, [' '] + t)
  {
    TrimStartKeepsVisible(s);
    VisibleAfterSpace(t);
    ConsKeepsSpacesSingle(' ', t);
    LastAfterSpaceRun(s, rest, t);
  }

  /** A space in front adds nothing visible. */
  lemma VisibleAfterSpace(t: string)
    ensures Visible([' '] + t) == Visible(t)
  {
    assert ([' '] + t)[1..] == t;
  }

  /** One space in front of `t` ends like `s` when `t` ends like the rest of `s` after its leading run. */
  lemma LastAfterSpaceRun(s: string, rest: string, t: string)
    requires |s| > 0 && IsSpace(s[0]) && rest == TrimStart(s)
    requires t == [] <==> rest == []
    requires EndsAlike(rest, t)
    ensures EndsAlike(s, [' '] + t)
  {
    var r := [' '] + t;
    if t == [] {
      assert IsSpace(s[|s| - 1 - |rest|]);
    } else {
      var n := |s| - |rest|;
      assert rest[|rest| - 1] == s[n + |rest| - 1];
      assert r[|r| - 1] == t[|t| - 1];
    }
  }

  /** Leading whitespace is invisible. */
  lemma TrimStartKeepsVisible(s: string)
    ensures Visible(TrimStart(s)) == Visible(s)
  {
    var rest := TrimStart(s);
    var run := s[..|s| - |rest|];
    VisibleOfSpaces(run);
    VisibleAppend(run, rest);
    assert s == run + rest;
  }

  /** Trailing whitespace is invisible. */
  lemma TrimEndKeepsVisible(a: string)
    ensures Visible(TrimEnd(a)) == Visible(a)
  {
    var r := TrimEnd(a);
    var back := a[|r|..];
    assert a == r + back;
    VisibleOfSpaces(back);
    VisibleAppend(r, back);
  }

  /** Trimming removes only whitespace. */
  lemma TrimKeepsVisible(c: string)
    ensures Visible(Trim(c)) == Visible(c)
  {
    TrimStartKeepsVisible(c);
    TrimEndKeepsVisible(TrimStart(c));
  }

  /** A visible head stays in front of `t`, the tail's collapse. */
  lemma CollapseVisible(s: string, t: string)
    requires |s| > 0 && !IsSpace(s[0])
    requires Collapsed(s[1..], t)
    ensures Collapsed(s, [s[0]] + t)
  {
    assert Visible(s) == [s[0]] + Visible(s[1..]);
    assert ([s[0]] + t)[1..] == t;
    ConsKeepsSpacesSingle(s[0], t);
    LastAfterVisible(s, t);
  }

  /** The head of `s` in front of `t` ends like `s` when `t` ends like the tail of `s`. */
  lemma LastAfterVisible(s: string, t: string)
    requires |s| > 0 && !IsSpace(s[0])
    requires t == [] <==> s[1..] == []
    requires EndsAlike(s[1..], t)
    ensures EndsAlike(s, [s[0]] + t)
  {
    var r := [s[0]] + t;
    if t != [] {
      assert r[|r| - 1] == t[|t| - 1] && s[1..][|s| - 2] == s[|s| - 1];
    }
  }

  /** Putting one character in front of a single-spaced string keeps it single-spaced. */
  lemma ConsKeepsSpacesSingle(c: char, t: string)
    requires IsSpace(c) ==> c == ' ' && (|t| == 0 || !IsSpace(t[0]))
    requires SingleSpaced(t)
    ensures SingleSpaced([c] + t)
  {
    var r := [c] + t;
    forall k | 0 <= k < |t| ensures !(r[k] == ' ' && r[k + 1] == ' ') {
      if k > 0 { assert r[k] == t[k - 1] && r[k + 1] == t[k]; }
    }
  }

  /** Normal form of a display name: only plain spaces, single, and none at either end. */
  predicate IsNormalName(s: string) {
    && SingleSpaced(s)
    && (|s| > 0 ==> s[0] != ' ' && s[|s| - 1] != ' ')
  }

  /**
   * The words of `s`: its maximal runs of non-whitespace characters, in order.
   * Read from the front, a visible character followed by another visible one
   * belongs to that character's word, and one followed by whitespace or the end
   * closes a word.
   */
  function Words(s: string): (r: seq<string>)
    ensures |s| > 0 && !IsSpace(s[0]) ==> |r| > 0
    decreases |s|
  {
    if |s| == 0 then []
    else if IsSpace(s[0]) then Words(s[1..])
    else if |s| == 1 || IsSpace(s[1]) then [[s[0]]] + Words(s[1..])
    else
      var rest := Words(s[1..]);
      [[s[0]] + rest[0]] + rest[1..]
  }

  /** The words joined by single plain spaces. */
  function Unwords(ws: seq<string>): string {
    if |ws| == 0 then []
    else if |ws| == 1 then ws[0]
    else ws[0] + " " + Unwords(ws[1..])
  }

  /** Whether `t` begins with a visible character, i.e. continues a word begun before it. */
  predicate StartsWord(t: string) {
    |t| > 0 && !IsSpace(t[0])
  }

  /** A leading whitespace character is not part of any word. */
  lemma WordsAfterSpace(x: char, t: string)
    requires IsSpace(x)
    ensures Words([x] + t) == Words(t)
  {
    assert ([x] + t)[1..] == t;
  }

  /** A leading visible character starts a word of its own or joins the first word of the rest. */
  lemma WordsAfterVisible(x: char, t: string)
    requires !IsSpace(x)
    ensures Words([x] + t) ==
      if StartsWord(t) then [[x] + Words(t)[0]] + Words(t)[1..] else [[x]] + Words(t)
  {
    var s := [x] + t;
    assert s[0] == x && s[1..] == t;
    if |t| > 0 {
      assert s[1] == t[0];
    }
  }

  lemma {:induction false} WordsOfSpaces(s: string)
    requires forall k | 0 <= k < |s| :: IsSpace(s[k])
    ensures Words(s) == []
  {
    if |s| > 0 {
      WordsOfSpaces(s[1..]);
    }
  }

  /** Leading whitespace does not change the words. */
  lemma {:induction false} WordsOfTrimStart(s: string)
    ensures Words(TrimStart(s)) == Words(s)
  {
    if |s| > 0 && IsSpace(s[0]) {
      WordsOfTrimStart(s[1..]);
    }
  }

  /** Trailing whitespace does not change the words. */
  lemma {:induction false} WordsAppendSpaces(a: string, b: string)
    requires forall k | 0 <= k < |b| :: IsSpace(b[k])
    ensures Words(a + b) == Words(a)
  {
    if |a| == 0 {
      assert a + b == b;
      WordsOfSpaces(b);
    } else {
      var t := a[1..];
      assert a == [a[0]] + t;
      assert a + b == [a[0]] + (t + b);
      WordsAppendSpaces(t, b);
      if t == [] {
        assert t + b == b;
        WordsOfSpaces(b);
      } else {
        assert (t + b)[0] == t[0];
      }
      assert StartsWord(t + b) == StartsWord(t);
      if IsSpace(a[0]) {
        WordsAfterSpace(a[0], t + b);
        WordsAfterSpace(a[0], t);
      } else {
        WordsAfterVisible(a[0], t + b);
        WordsAfterVisible(a[0], t);
      }
    }
  }

  lemma WordsOfTrimEnd(s: string)
    ensures Words(TrimEnd(s)) == Words(s)
  {
    var r := TrimEnd(s);
    assert s == r + s[|r|..];
    WordsAppendSpaces(r, s[|r|..]);
  }

  /** Trimming keeps the words. */
  lemma WordsOfTrim(s: string)
    ensures Words(Trim(s)) == Words(s)
  {
    WordsOfTrimStart(s);
    WordsOfTrimEnd(TrimStart(s));
  }

  /** Replacing each whitespace run with one space keeps the words: none is merged, split or lost. */
  lemma {:induction false} CollapseKeepsWords(s: string)
    ensures Words(CollapseSpaces(s)) == Words(s)
    decreases |s|
  {
    if |s| > 0 {
      if IsSpace(s[0]) {
        var rest := TrimStart(s);
        assert |rest| < |s|;
        CollapseKeepsWords(rest);
        assert CollapseSpaces(s) == [' '] + CollapseSpaces(rest);
        WordsAfterSpace(' ', CollapseSpaces(rest));
        WordsOfTrimStart(s);
      } else {
        var c := CollapseSpaces(s[1..]);
        CollapseKeepsWords(s[1..]);
        assert CollapseSpaces(s) == [s[0]] + c;
        StartsAlike(s[1..], c);
        WordsAfterVisibleHead(s, c);
      }
    }
  }

  /** A visible head in front of `c`, a tail with the same words and start as `s`'s, gives `s`'s words. */
  lemma WordsAfterVisibleHead(s: string, c: string)
    requires |s| > 0 && !IsSpace(s[0])
    requires Words(c) == Words(s[1..]) && StartsWord(c) == StartsWord(s[1..])
    ensures Words([s[0]] + c) == Words(s)
  {
    WordsAfterVisible(s[0], c);
    WordsAfterVisible(s[0], s[1..]);
    assert s == [s[0]] + s[1..];
  }

  /** A collapse starts a word exactly when its input does. */
  lemma StartsAlike(s: string, c: string)
    requires c == [] <==> s == []
    requires |c| > 0 ==> (IsSpace(c[0]) <==> IsSpace(s[0]))
    ensures StartsWord(c) == StartsWord(s)
  {
  }

  /** Putting a character in front of the first word puts it in front of the joined text. */
  lemma UnwordsJoinFirst(x: char, w: string, rest: seq<string>)
    ensures Unwords([[x] + w] + rest) == [x] + Unwords([w] + rest)
  {
    var v := [[x] + w] + rest;
    var u := [w] + rest;
    assert v[0] == [x] + w && u[0] == w;
    if rest == [] {
      assert |v| == 1 && |u| == 1;
    } else {
      assert v[1..] == rest && u[1..] == rest;
      var tail := " " + Unwords(rest);
      assert ([x] + w) + tail == [x] + (w + tail);
    }
  }

  /** A suffix of a normal name that starts at a non-space is a normal name. */
  lemma NormalSuffix(a: string, i: nat)
    requires IsNormalName(a) && i < |a| && a[i] != ' '
    ensures IsNormalName(a[i..])
  {
    var t := a[i..];
    assert forall k | 0 <= k < |t| :: t[k] == a[i + k];
  }

  /** A normal name is its words joined by single spaces: the words determine it. */
  lemma {:induction false} NormalNameIsUnwords(a: string)
    requires IsNormalName(a)
    ensures a == Unwords(Words(a))
    decreases |a|
  {
    if |a| > 0 {
      assert !IsSpace(a[0]);
      if |a| == 1 {
        assert Words(a) == [[a[0]]] + Words(a[1..]);
        assert Words(a[1..]) == [];
      } else if IsSpace(a[1]) {
        assert a[1] == ' ' && |a| > 2 && a[2] != ' ';
        var t := a[2..];
        NormalSuffix(a, 2);
        NormalNameIsUnwords(t);
        assert a[1..] == [a[1]] + t;
        WordsAfterSpace(a[1], t);
        var ws := Words(t);
        assert |ws| > 0;
        assert Words(a) == [[a[0]]] + ws;
        assert ([[a[0]]] + ws)[1..] == ws;
        assert a == [a[0]] + " " + t;
      } else {
        var t := a[1..];
        NormalSuffix(a, 1);
        NormalNameIsUnwords(t);
        var ws := Words(t);
        assert |ws| > 0 && ws == [ws[0]] + ws[1..];
        UnwordsJoinFirst(a[0], ws[0], ws[1..]);
        assert a == [a[0]] + t;
      }
    }
  }

  function ToLowerChar(c: char): (r: char)
  {
    if 'A' <= c <= 'Z' then (c as int + 32) as char else c
  }

  /** `toLowerCase`, restricted to the ASCII letters. */
  function ToLower(s: string): (r: string)
    ensures |r| == |s|
    ensures forall k | 0 <= k < |s| :: r[k] == ToLowerChar(s[k])
  {
    seq(|s|, k requires 0 <= k < |s| => ToLowerChar(s[k]))
  }

  /** No ASCII capital letter occurs. */
  predicate IsLowerCase(s: string) {
    forall k | 0 <= k < |s| :: !('A' <= s[k] <= 'Z')
  }

  lemma ToLowerIsLowerCase(s: string)
    ensures IsLowerCase(ToLower(s))
  {
  }

  /** A UTF-16 code unit, as returned by `charCodeAt`. */
  type CodeUnit = n: int | 0 <= n < 0x1_0000

  /** The UTF-16 encoding of one character: one unit in the basic plane, else a surrogate pair. */
  function Utf16(c: char): (r: seq<CodeUnit>)
    ensures c as int < 0x1_0000 ==> r == [c as int]
    ensures c as int >= 0x1_0000 ==> |r| == 2 && 0xD800 <= r[0] < 0xDC00 <= r[1] < 0xE000
  {
    var n := c as int;
    if n < 0x1_0000 then [n]
    else [0xD800 + (n - 0x1_0000) / 0x400, 0xDC00 + (n - 0x1_0000) % 0x400]
  }

  /** The code units JavaScript iterates over when it indexes a string. */
  function CodeUnits(s: string): (r: seq<CodeUnit>)
    ensures |r| >= |s|
  {
    if |s| == 0 then [] else CodeUnits(s[..|s| - 1]) + Utf16(s[|s| - 1])
  }

  predicate IsAscii(s: string) {
    forall k | 0 <= k < |s| :: s[k] as int < 0x80
  }

  /** On basic-plane text every character is exactly one code unit. */
  lemma {:induction false} CodeUnitsOfBasicPlane(s: string)
    requires forall k | 0 <= k < |s| :: s[k] as int < 0x1_0000
    ensures |CodeUnits(s)| == |s|
    ensures forall k | 0 <= k < |s| :: CodeUnits(s)[k] == s[k] as int
  {
    if |s| > 0 {
      CodeUnitsOfBasicPlane(s[..|s| - 1]);
    }
  }
}

=== FILE: wrappers.dfy ===
/** Failure-carrying return types shared by the model. */
module Wrappers {

  /** A value that may be absent: JavaScript's `null`/`undefined` or "no index found". */
  datatype Option<+T> = None | Some(value: T)

  /** The outcome of an operation that either produces a value or reports an error. */
  datatype Result<+R, +E> = Success(value: R) | Failure(error: E)
}
